=== FILE: README.md ===
# Interview session core, modelled in Dafny

This project models the back end of a mock-interview service. A candidate
uploads a résumé and the service generates interview questions from it. The
questions are spoken to the candidate one at a time. Each spoken answer is
transcribed and graded in the background, and a feedback report is returned
at the end.

The model covers these parts of the service:

- **Session store** (`SessionManager`, `session_manager.dfy`). Sessions are
  kept by id. Each holds a question list, a pointer, the answers so far, and
  two maps keyed by question position: grading feedback and pre-generated
  audio paths. Every operation is a pure function from the old store to the
  new one.
- **Background callbacks** (`BackgroundTasks`, `background_tasks.dfy`).
  The audio pre-fetch loop runs over questions 1 … n-1. Answer grading writes
  at a snapshotted position. Speech synthesis and the evaluator are function
  parameters. Scheduled callbacks run one after another, in any order.
- **Interview endpoints** (`InterviewApi`, `interview.dfy`). `/start`,
  `/next` and `/feedback` are modelled as the order of store operations they
  perform. Each endpoint returns its reply or HTTP error, the store
  afterwards, and the background jobs it scheduled. An error response
  schedules no jobs, because the framework runs background tasks only after
  a successful response.
- **Key/value résumé normaliser** (`JsonUtils`, `json_utils.dfy`). This
  covers `normalize_str`, the integer path of `safe_int`, `parse_kv_to_json`,
  and the part of `safe_json_parse` before `json.loads`: fence removal and
  the `{...}` span search.
- **Question generators** (`ProfileText`, `QuestionGenerator`,
  `QuestionsGenrator`). Both build the same profile summary for the prompt.
  The chat variant keeps lines that ask something, falls back to every
  non-blank line, and cuts the list with `[:num_questions]`. The router
  variant keeps every non-blank line and caps the list at 10.

`Text` (`text.dfy`) holds the Python string operations the model relies on:

| Python | Dafny |
|---|---|
| `strip` | `Strip` |
| `split(sep)` | `Split` |
| `join` | `Join` |
| `splitlines` | `SplitLines` |
| `[x.strip() for x in xs if x.strip()]` | `StrippedNonBlank` |
| `str(n)` | `NatToString` |

`Outcomes` (`outcomes.dfy`) holds `Option`, `Result` and `Get`, Python's
`d.get(k)`, which models both `get_session` and `data.get`.

Two behaviours of the code are modelled as written:

- `create_session` accepts an empty question list. The fresh session then
  has its pointer at the end but is not completed, and a submit pushes the
  pointer past the end (`SessionManager.EmptyQuestionList`). The guard
  against this sits in the `/start` endpoint, and the store invariant
  `StoreValid` relies on it.
- In `/next`, the synthesis of the next question can fail when its audio is
  not cached. The answer is then already recorded, the request ends in a
  500, and the grading job is never scheduled (`MissingAudioPath` in
  `InterviewApi.NextQuestion`).

## Model

| member | source | states |
|---|---|---|
| SessionManager.Create | app/services/session_manager.py:20-24 | the new session is registered under its id and every other session is unchanged |
| SessionManager.CreateFresh | app/services/session_manager.py:5-24 | a freshly created session with at least one question serves question 0, is not finished, has an empty feedback report and no cached audio, and keeps the store valid |
| SessionManager.NewSessionValid | app/services/session_manager.py:5-14 | a new session satisfies the progress invariant exactly when its question list is non-empty |
| Outcomes.Get | app/services/session_manager.py:26-27 | `get_session` and `data.get`: a value exactly when the key is present, and then the stored value |
| SessionManager.CurrentQuestion | app/services/session_manager.py:29-36 | the question at the pointer when the id is known and the pointer is in range, otherwise None |
| SessionManager.SubmitAnswer | app/services/session_manager.py:38-56 | refused (store unchanged) exactly for an unknown or completed session; otherwise the answer is appended, the pointer advances by one, completion is set exactly when the pointer reaches the end, feedback is stored at the old position only when given, and nothing else changes |
| SessionManager.SubmitPreservesValid | app/services/session_manager.py:47-54 | a submit keeps one answer per advancement, the pointer in range and completion tied to the end |
| SessionManager.SubmitCompletes | app/services/session_manager.py:43-56 | on a valid session a submit succeeds exactly when there is a current question, completes the session exactly on the last question, and the next submit is refused without changing anything |
| SessionManager.SubmitAllAdvances | app/services/session_manager.py:47-54 | k submits record the k answers in order, advance the pointer by k and complete the session exactly at the end |
| SessionManager.FullInterviewCompletes | app/services/session_manager.py:20-56 | answering every question of a new session completes it with the answers in order; then there is no current question, it is finished and a further submit is refused |
| SessionManager.EmptyQuestionList | app/services/session_manager.py:44-54 | with an empty question list the new session breaks the invariant and one submit pushes the pointer past the end |
| SessionManager.AddFeedback | app/services/session_manager.py:58-65 | an upsert at the given position of a known session only; progress and audio are untouched, other positions and sessions keep their values |
| SessionManager.SetCachedAudio | app/services/session_manager.py:67-70 | an upsert of the audio path at the given position of a known session only; progress and feedback are untouched |
| SessionManager.GetCachedAudio | app/services/session_manager.py:72-76 | a path exactly when the session is known and the position was cached, and then the cached path |
| SessionManager.IsFinished | app/services/session_manager.py:85-89 | finished exactly when the id is unknown or the session is completed |
| SessionManager.SortedKeys | app/services/session_manager.py:83 | `sorted(keys)`: a strictly increasing list holding exactly the keys |
| SessionManager.SortedKeysRank | app/services/session_manager.py:83 | `sorted` puts every key at its rank, the number of keys smaller than it |
| SessionManager.FeedbackReport | app/services/session_manager.py:82-83 | one entry per recorded position; the feedback of position a sits at the rank of a among the recorded positions |
| SessionManager.AllFeedback | app/services/session_manager.py:78-83 | None exactly for an unknown id, otherwise the report of the session's feedback |
| SessionManager.ReportOrdered | app/services/session_manager.py:82-83 | a smaller recorded position has a strictly smaller rank, so its feedback comes strictly earlier in the report |
| SessionManager.ReportOfTwo | app/services/session_manager.py:82-83 | feedback at positions 0 and 1 is reported as [f0, f1] |
| SessionManager.ReportOutOfOrderArrival | app/services/session_manager.py:58-83 | grading that lands for question 1 before question 0 still yields the report in question order |
| SessionManager.AddFeedbackLastWins | app/services/session_manager.py:63-65 | recording feedback twice at one position leaves the later value; repeating the same write is idempotent |
| SessionManager.AddFeedbackCommutes | app/services/session_manager.py:63-65 | feedback for two different positions may arrive in either order |
| SessionManager.SetCachedAudioLastWins | app/services/session_manager.py:67-76 | caching twice at one position leaves the later path, which `get_cached_audio` returns; repeating the same write is idempotent |
| SessionManager.AddFeedbackPreservesValid | app/services/session_manager.py:58-65 | a feedback write at a valid position keeps the store valid |
| SessionManager.SetCachedAudioPreservesValid | app/services/session_manager.py:67-70 | an audio write at a valid position keeps the store valid |
| SessionManager.SubmitCommutesWithFeedback | app/services/session_manager.py:38-65 | a feedback write and a submit, for any sessions, reach the same store and submit result in either order |
| SessionManager.SubmitCommutesWithAudio | app/services/session_manager.py:38-70 | an audio write and a submit, for any sessions, reach the same store and submit result in either order |
| BackgroundTasks.AudioPrefixDecodes | app/services/background_tasks.py:19 | the prefix `q_{id}_{idx}` reads back: "q_", the id, '_', then digits whose value is idx |
| BackgroundTasks.AudioPrefixInjective | app/services/background_tasks.py:19 | two (session, position) pairs never share the prefix `q_{id}_{idx}`, even when ids contain '_' |
| BackgroundTasks.CacheIfSpoken | app/services/background_tasks.py:32-38 | a valid synthesis caches its path at the position; an invalid one changes nothing; progress and feedback are untouched |
| BackgroundTasks.PrefetchFrom | app/services/background_tasks.py:15-41 | the loop requests synthesis for positions 1 … n-1 in order, once each; it touches only the audio of its own session |
| BackgroundTasks.PrefetchCachesExactly | app/services/background_tasks.py:15-41 | afterwards position i holds the path of a valid synthesis of question i under `q_{id}_{i}` exactly when i ≥ 1 and that synthesis was valid; every other entry is untouched, so one failure does not stop the others |
| BackgroundTasks.PrefetchTts | app/services/background_tasks.py:5-41 | position 0 is never requested; every other position is requested once; progress is untouched |
| BackgroundTasks.PrefetchConsultsOnlyRequested | app/services/background_tasks.py:15-32 | the loop's outcome depends on the synthesizer only at (question i, `q_{id}_{i}`) for i ≥ 1 |
| BackgroundTasks.ProcessAnswerEvaluation | app/services/background_tasks.py:43-56 | the grade is written at exactly the given position; if the evaluator raises nothing changes; progress and audio are untouched |
| BackgroundTasks.RunJob | app/services/background_tasks.py:5-56 | a background job never changes any session's id, questions, pointer, answers or completion |
| BackgroundTasks.RunJobs | app/services/background_tasks.py:5-56 | the same holds for any sequence of jobs |
| BackgroundTasks.RunJobPreservesValid | app/services/background_tasks.py:5-56 | a job aimed at positions of its session's question list keeps the store valid |
| BackgroundTasks.RunJobsPreservesValid | app/services/background_tasks.py:5-56 | any sequence of such jobs, in any order, keeps the store valid |
| BackgroundTasks.GradesCommute | app/services/background_tasks.py:50-52 | grades for different positions or sessions reach the same store in either order |
| BackgroundTasks.CacheCommutesWithSubmit | app/services/background_tasks.py:34-35 | each cache write of the prefetch loop reaches the same store before or after a submit |
| BackgroundTasks.GradeCommutesWithSubmit | app/services/background_tasks.py:50-52 | a grading write reaches the same store before or after a submit |
| InterviewApi.Status | app/api/interview.py:49-125 | "not found" and "session invalid" are 404; every other failure is 500 |
| InterviewApi.StartInterview | app/api/interview.py:49-76 | an empty question list is rejected before any session exists; otherwise the session is registered and question 0 is spoken as `q_{id}_0`; the reply carries question 0, its audio path and the question count, and schedules the prefetch only on success |
| InterviewApi.AnswerText | app/api/interview.py:108-110 | an empty transcript becomes exactly "[Audio Unintelligible]", any other is kept unchanged |
| InterviewApi.NextAudio | app/api/interview.py:146-154 | a cached non-empty path is served as is; otherwise the question is synthesized under `q_{id}_{idx}`, and a failed synthesis yields no path |
| InterviewApi.NextQuestion | app/api/interview.py:92-161 | unknown id → not found; no or empty current question → not found or finished, store unchanged; session invalid exactly for a completed session; a known, uncompleted session with a non-empty current question always has its answer recorded; when recorded the store is the submit's result and the grading job carries the pre-submit position and question; a recorded last answer always succeeds with `is_finished`, "Done" and no question; otherwise the next question, its audio and progress `index+1` |
| InterviewApi.GetFeedback | app/api/interview.py:164-173 | not found exactly for an unknown id, otherwise the ordered report |
| InterviewApi.StartPreservesValid | app/api/interview.py:49-68 | `/start` keeps the store valid; the announced question is the new session's current one and the prefetch job fits the session |
| InterviewApi.NextPreservesValid | app/api/interview.py:113-130 | `/next` keeps the store valid and its grading job targets a position of the question list |
| InterviewApi.NextNeverInvalid | app/api/interview.py:113-125 | on a valid store the "Session invalid" branch is unreachable |
| InterviewApi.NextReplyMatchesStore | app/api/interview.py:140-161 | a non-final reply serves the session's new current question and its progress string spells the 1-based position |
| InterviewApi.GradeLandsWithItsAnswer | app/api/interview.py:117-130 | after the scheduled grading job runs, the grade sits at the position where the answer was recorded |
| InterviewApi.CachedAudioNeedsNoSynthesis | app/api/interview.py:146-154 | when the next question's audio is cached, `/next` does not depend on the synthesizer |
| InterviewApi.NextDependsOnProgress | app/api/interview.py:117-161 | the reply and jobs of `/next` depend only on the session's progress and the audio served for the next question |
| InterviewApi.PrefetchIsTransparent | app/api/interview.py:146-154 | with one deterministic synthesizer, running the prefetch before `/next` gives the same reply and jobs as not running it |
| InterviewApi.NextOkCarriesOver | app/api/interview.py:117-161 | if the next question's audio is available whenever it is on another store with the same progress, a `/next` that succeeds there succeeds here with the same jobs and the same reply apart from the audio path |
| InterviewApi.PrefetchNeverHurts | app/api/interview.py:146-154 | for any two synthesizers, a `/next` that succeeds without the prefetch also succeeds after it, with the same question, progress and jobs |
| Text.Strip | app/json_utils.py:93 | the result has no surrounding whitespace and is no longer than the input; that it is the input's middle is stated by StripShape and StripPadded |
| Text.StripShape | app/json_utils.py:93 | what `strip()` keeps is the slice right after the leading whitespace, and only whitespace follows it |
| Text.StripIdempotent | app/json_utils.py:93 | stripping twice is stripping once |
| Text.StripEmptyIff | app/json_utils.py:83 | `s.strip()` is empty exactly when `s` is all whitespace |
| Text.StripKeeps | app/services/question_generator.py:75-77 | stripping neither adds nor removes a non-whitespace character |
| Text.Split | app/services/question_generator.py:76 | `split(sep)` gives at least one part and no part contains the separator |
| Text.SplitLines | app/json_utils.py:37 | no line of `splitlines()` contains a line break |
| Text.NatToString | app/api/interview.py:161 | `str(n)` of a position is a non-empty string of digits |
| Text.SplitJoin | app/services/questions_genrator.py:81 | splitting a join on a separator absent from the parts gives the parts back |
| Text.JoinSplit | app/services/question_generator.py:76 | joining a split gives the text back |
| Text.Join | app/services/question_generator.py:20 | a join of at least one part starts with the first part |
| Text.JoinEmptyIff | app/services/question_generator.py:20 | a join is empty exactly when there are no parts or a single empty part |
| Text.SplitLinesTerminated | app/json_utils.py:37 | `splitlines()` of newline-terminated lines gives those lines |
| Text.SplitLinesUnterminated | app/json_utils.py:37 | a last line with no break after it is kept as the final line |
| Text.SplitLinesPrefix | app/json_utils.py:37 | newline-terminated lines in front of any text are split off unchanged, whatever follows |
| Text.StrippedNonBlank | app/services/questions_genrator.py:79-83 | every kept item is non-empty and stripped, and there are no more items than inputs |
| Text.StrippedNonBlankMembers | app/services/questions_genrator.py:79-83 | every non-blank input survives stripped and nothing else appears |
| Text.StrippedNonBlankAppend | app/services/questions_genrator.py:79-83 | the filter keeps the original order: it distributes over concatenation |
| Text.StrippedNonBlankKeepsClean | app/services/questions_genrator.py:79-83 | already clean items pass through unchanged |
| Text.SplitJoinPadded | app/json_utils.py:59-63 | clean items joined by a separator followed by whitespace (as `", ".join` does) come back from split, strip and filter exactly |
| Text.DigitsValueOfNatToString | app/api/interview.py:161 | `str(n)` is all digits and reads back as n |
| Text.NatToStringInjective | app/services/background_tasks.py:19 | different positions render differently |
| JsonUtils.NullMarkerIsCaseless | app/json_utils.py:91 | the marker test accepts exactly NA, N/A and NULL in any mix of cases |
| JsonUtils.NormalizeStr | app/json_utils.py:88-93 | None stays None; a value that strips to a null marker becomes None; anything else is returned stripped |
| JsonUtils.NormalizeStrIdempotent | app/json_utils.py:88-93 | normalising twice is normalising once |
| JsonUtils.SafeInt | app/json_utils.py:78-87 | the default for None, for a blank value and for a null marker; an integer literal within 2^53 reads as its value; anything else goes to the float path |
| JsonUtils.SafeIntRoundTrip | app/json_utils.py:78-87 | any integer within 2^53, rendered and padded with whitespace, reads back as itself |
| JsonUtils.IntLiteral | app/json_utils.py:85 | the integer-literal path of `int(float(s))`: an optional sign followed by ASCII digits is read directly, and any other text goes to the float path; a '-' gives a non-positive value, anything else a non-negative one |
| JsonUtils.IntLiteralOfIntToString | app/json_utils.py:85 | `int` of the rendering of n is n |
| JsonUtils.ParseLine | app/json_utils.py:40-44 | a line without ':' is skipped; otherwise it splits at the first ':' into a stripped key without ':' and a stripped value |
| JsonUtils.ParseLineRoundTrip | app/json_utils.py:41-44 | a line of key, ':', value, with any whitespace before and after each, reads back as (key, value), even when the value contains ':' |
| JsonUtils.CollectKeys | app/json_utils.py:38-44 | a key is in the dict exactly when some line carries it |
| JsonUtils.CollectLastWins | app/json_utils.py:40-44 | a key's value is the one on the last line that carries it |
| JsonUtils.ParseKvText | app/json_utils.py:37-44 | keys and values of the dict are stripped and keys contain no ':' |
| JsonUtils.ParseKvTextOfLines | app/json_utils.py:37-44 | the dict of newline-terminated lines is built from exactly those lines |
| JsonUtils.ParseKvTextOfUnterminated | app/json_utils.py:37-44 | the same when the last line has no break after it |
| JsonUtils.LastLineWins | app/json_utils.py:37-44 | a key on the last line is read, with or without a final line break, and overrides earlier lines with that key |
| JsonUtils.SkillsOf | app/json_utils.py:59-63 | raises exactly when the value strips to a null marker; otherwise every skill is non-empty, stripped and free of ',' |
| JsonUtils.SkillsRoundTrip | app/json_utils.py:59-63 | clean skills joined by a comma and any whitespace (as in "Python, SQL"), with whitespace at either end, read back as that list unless the whole value is a null marker |
| JsonUtils.SkillsValue | app/json_utils.py:61 | `data.get("skills") or ""` is a null marker exactly when the stored skills value is |
| JsonUtils.ParseKvToJson | app/json_utils.py:36-77 | raises exactly when the skills value is a null marker; otherwise the user, profile (summary ""), one employment and one education come from the named keys, and the skills are the comma split of the stored `skills` value, stripped with blanks dropped |
| JsonUtils.ParseKvToJsonSkills | app/json_utils.py:59-63 | a `skills` line listing clean names separated by a comma and whitespace gives exactly those names in the parsed resume |
| JsonUtils.RemoveFences | app/json_utils.py:12 | fence removal never lengthens the text |
| JsonUtils.RemoveFencesKeepsBraces | app/json_utils.py:12 | fence removal never removes or adds a brace |
| JsonUtils.RemoveFencesPlain | app/json_utils.py:12 | text without backticks passes through untouched |
| JsonUtils.FencedRoundTrip | app/json_utils.py:12 | a fenced `json` block reads back as its body |
| JsonUtils.ExtractObject | app/json_utils.py:15-17 | a span exists exactly when a '{' precedes a '}'; it runs from the first '{' to the last '}' and is a slice of the text |
| JsonUtils.JsonCandidate | app/json_utils.py:11-19 | when a candidate is found it starts with '{' and ends with '}' |
| JsonUtils.BracesOfStrip | app/json_utils.py:12 | stripping never changes the braces |
| JsonUtils.NoObjectDecidedByRawText | app/json_utils.py:11-17 | "No JSON object found" is raised exactly when the raw text has no '{' before a '}'; fences and whitespace never matter |
| ProfileText.Field | app/services/question_generator.py:23 | "NA" for a missing key, "None" for a None value, otherwise the value |
| ProfileText.OrNA | app/services/question_generator.py:20-30 | `text or "NA"` is never empty and keeps non-empty text |
| ProfileText.SkillsText | app/services/question_generator.py:20 | the skills line is never empty and reads "NA" exactly for no skills, a single empty skill, or the single skill "NA" |
| ProfileText.ExperienceText | app/services/question_generator.py:22-25 | the experience line is never empty and reads "NA" exactly when there is no experience |
| ProfileText.EducationText | app/services/question_generator.py:27-30 | the education line is never empty and reads "NA" exactly when there is no education |
| ProfileText.SkillsTextRoundTrip | app/services/question_generator.py:20 | splitting the skills line of clean skill names on ',' and stripping the pieces gives the names back |
| ProfileText.ExperienceTextRoundTrip | app/services/question_generator.py:22-25 | with clean titles and companies, splitting the experience line on ';' and stripping gives one "title at company" per entry, in order |
| ProfileText.EducationTextRoundTrip | app/services/question_generator.py:27-30 | with clean degrees and institutions, splitting the education line on ';' and stripping gives one "degree from institution" per entry, in order |
| ProfileText.SingleExperience | app/services/questions_genrator.py:21-24 | one experience renders as "title at company" with "NA" defaults |
| QuestionGenerator.PromptFor | app/services/question_generator.py:20-52 | the three summary lines are never empty and the prompt asks for the requested count |
| QuestionGenerator.AskedLine | app/services/question_generator.py:74-78 | a line is kept only when it strips to something non-empty that asks something |
| QuestionGenerator.QuestionLines | app/services/question_generator.py:74-78 | at most one question per line |
| QuestionGenerator.QuestionLinesClean | app/services/question_generator.py:74-78 | every kept line is non-empty, stripped and contains '?' |
| QuestionGenerator.QuestionLinesAllAsk | app/services/question_generator.py:74-78 | when every line asks something, the filter keeps every non-blank line stripped |
| QuestionGenerator.QuestionLinesAppend | app/services/question_generator.py:74-78 | the filter keeps line order: it distributes over concatenation |
| QuestionGenerator.QuestionLinesNoneAsk | app/services/question_generator.py:74-83 | lines that ask nothing yield nothing, so the fallback runs |
| QuestionGenerator.ParseQuestions | app/services/question_generator.py:71-83 | when any line asks something, the result is exactly the asking lines, stripped, in order; otherwise it is every non-blank line, stripped; every result is non-empty and stripped |
| QuestionGenerator.ParseQuestionsOfLines | app/services/question_generator.py:71-78 | a reply in which some line asks something yields exactly its asking lines, in order |
| QuestionGenerator.IntroLineDropped | app/services/question_generator.py:71-78 | an introduction line without '?' before clean questions is dropped, and the questions are kept |
| QuestionGenerator.ParseQuestionsRoundTrip | app/services/question_generator.py:74-78 | clean questions, one per line, read back unchanged |
| QuestionGenerator.ParseQuestionsFallback | app/services/question_generator.py:80-83 | a reply without '?' keeps every non-blank line |
| QuestionGenerator.SliceTo | app/services/question_generator.py:85 | `xs[:n]` is a prefix of length min(n, len) for n ≥ 0 and max(len+n, 0) for n < 0 |
| QuestionGenerator.GenerateInterviewQuestions | app/services/question_generator.py:16-90 | no token or a failing model call gives []; otherwise the first `num_questions` parsed questions (all of them when there are fewer), each non-empty and stripped |
| QuestionGenerator.GenerateRoundTrip | app/services/question_generator.py:71-85 | a reply of clean questions, one per line, comes back cut to its first `num_questions` questions |
| QuestionsGenrator.ParseLines | app/services/questions_genrator.py:79-83 | every kept line is non-empty and stripped |
| QuestionsGenrator.ParseLinesOfLines | app/services/questions_genrator.py:79-83 | any reply, blank and indented lines included, gives its non-blank lines stripped, in order |
| QuestionsGenrator.ParseLinesRoundTrip | app/services/questions_genrator.py:79-83 | clean lines, one per line, read back unchanged |
| QuestionsGenrator.GenerateInterviewQuestions | app/services/questions_genrator.py:73-86 | a failed request propagates its error; otherwise the first min(10, n) of the n parsed lines, each non-empty and stripped |
| QuestionsGenrator.GenerateRoundTrip | app/services/questions_genrator.py:73-86 | a reply of clean lines comes back in order, cut to the first ten |
| QuestionsGenrator.CountIgnored | app/services/questions_genrator.py:31-86 | for the same reply the requested count does not change the result |

## Left out

- HTTP routing, file uploads, `HTTPException` details and the answer-file
  write in `/next` are I/O. Only the order of store operations and the
  error kind with its status code are modelled.
- Session ids from `uuid4()[:8]` and the `created_at` timestamp are
  nondeterministic. Ids are supplied by the caller, and `created_at` is
  dropped.
- Concurrency is not modelled. Background callbacks are sequential jobs
  that may run in any order. Interleavings within one prefetch loop are
  covered only write by write.
- Text-to-speech, speech-to-text, the answer evaluator and both language-model
  calls are foreign calls. They are function parameters:
  - the synthesizer returns valid or invalid, with a raise folded into
    invalid;
  - the evaluator returns `None` when it raises;
  - `/next` receives the transcript;
  - `/start` receives the generated questions.
- Résumé text extraction and LLM JSON conversion, which run before the
  question generator in `/start`, are not modelled.
- `json.loads` and the trailing-comma retry of `safe_json_parse` are not
  modelled, because they need a JSON grammar. Only the fence removal and
  the `{...}` span search before them are modelled.
- SafeInt: non-integer text and integers beyond 2^53 take the
  `int(float(...))` path. That path is an uninterpreted `floatPath`
  parameter, because floating-point parsing and rounding are not modelled.
- ParseKvToJson: dict values are strings only, since that is all
  `parse_kv_to_json` stores.
- ProfileText.Field: profile entries hold strings or `None`. Other value
  types and non-list `skills` are not modelled; those would make the
  generators raise outside their error handling.
- NormalizeStr: `.upper()` is modelled on ASCII letters. No other
  character upper-cases into the letters of "NA", "N/A" or "NULL", so the
  marker test is unaffected.
- SubmitAnswer: the optional feedback is `Option<Feedback>`, so an empty
  feedback dict (falsy in Python) is not modelled. The only caller passes
  `None`.
- BackgroundTasks.ProcessAnswerEvaluation: an evaluator that returns `None`
  without raising would store `None`. The model treats `None` as a raise
  and stores nothing.
- InterviewApi.PrefetchIsTransparent: equality of replies holds when the
  same deterministic synthesizer serves both the prefetch and `/next`. A
  real synthesizer writes a fresh file per call, so for two different
  synthesizers only InterviewApi.PrefetchNeverHurts holds: the reply stays
  successful and only the audio path may differ.
- JsonUtils.SkillsRoundTrip: the same whitespace follows every comma. A
  different run of whitespace after each comma is not stated.
- QuestionGenerator.QuestionLines: its own contract only bounds the number
  of questions. What is kept is stated by QuestionLinesClean,
  QuestionLinesAllAsk, QuestionLinesNoneAsk and QuestionLinesAppend, which
  are kept apart from the recursive definition to keep proofs small.
- CacheCommutesWithSubmit: commutation of the prefetch loop with a submit
  is stated per cache write, not for the whole loop at once.
- QuestionsGenrator.CountIgnored and InterviewApi.NextNeverInvalid hold by
  unfolding the definitions. They record design facts: the count reaches
  only the prompt, and the "Session invalid" branch is dead.
- The printed debug messages and prompt wording are not modelled. The
  prompt is represented by the values it interpolates.

=== FILE: background_tasks.dfy ===
/** The two background callbacks: audio pre-generation for every question
    after the first (`prefetch_tts`) and grading of one submitted answer
    (`process_answer_evaluation`). Speech synthesis and grading are
    collaborators the model does not see; they are passed in as functions. */
module BackgroundTasks {
  import opened Outcomes
  import opened Text
  import opened SessionManager

  /** A `speak_text` result: valid with its `relative_path`, or invalid with
      its error. A call that raises is folded into `SpeechFailed`; every
      caller in the model treats the two alike. */
  datatype Speech = Spoken(path: string) | SpeechFailed(error: string)

  /** `text_to_speech.speak_text(text, filename_prefix)`. */
  type Speaker = (string, string) -> Speech

  /** `evaluator.evaluate_answer(question, answer)`; `None` when the call raises. */
  type Evaluator = (string, string) -> Option<Feedback>

  /** The filename prefix `q_{session_id}_{idx}` under which the audio of
      question `idx` is synthesized. */
  function AudioPrefix(id: string, index: nat): string
  {
    "q_" + id + "_" + NatToString(index)
  }

  /** The name can be read back: after "q_", the session id and '_' come
      decimal digits whose value is the position. */
  lemma AudioPrefixDecodes(id: string, index: nat)
    ensures var p := AudioPrefix(id, index);
      && |p| > 3 + |id| && p[..3 + |id|] == "q_" + id + "_"
      && AllDigits(p[3 + |id|..]) && DigitsValue(p[3 + |id|..]) == index
  {
    var p := AudioPrefix(id, index);
    DigitsValueOfNatToString(index);
    assert p[..3 + |id|] == "q_" + id + "_" && p[3 + |id|..] == NatToString(index);
  }

  /** Two (session, position) pairs never share an audio file name, even
      when a session id itself contains '_'. */
  lemma AudioPrefixInjective(a: string, i: nat, b: string, j: nat)
    requires AudioPrefix(a, i) == AudioPrefix(b, j)
    ensures a == b && i == j
  {
    var x, y := AudioPrefix(a, i), AudioPrefix(b, j);
    var di, dj := NatToString(i), NatToString(j);
    assert x == "q_" + a + "_" + di && y == "q_" + b + "_" + dj;
    // The last '_' of each name sits just before the digits.
    assert x[2 + |a|] == '_' && y[2 + |b|] == '_';
    assert forall k :: 3 + |a| <= k < |x| ==> x[k] == di[k - 3 - |a|] && IsDigit(x[k]);
    assert forall k :: 3 + |b| <= k < |y| ==> y[k] == dj[k - 3 - |b|] && IsDigit(y[k]);
    assert |a| == |b|;
    assert a == x[2..2 + |a|] == y[2..2 + |b|] == b;
    assert di == x[3 + |a|..] == y[3 + |b|..] == dj;
    NatToStringInjective(i, j);
  }

  // ---------------------------------------------------------------------
  // prefetch_tts
  // ---------------------------------------------------------------------

  /** The consecutive positions `lo`, ..., `hi - 1`. */
  function Range(lo: nat, hi: nat): (r: seq<nat>)
    ensures |r| == if lo < hi then hi - lo else 0
    ensures forall k :: 0 <= k < |r| ==> r[k] == lo + k
    decreases hi - lo
  {
    if lo < hi then [lo] + Range(lo + 1, hi) else []
  }

  /** Whether iteration `i` of the loop, started at `from`, caches audio:
      it is not the skipped first question and synthesis returned a valid
      result. */
  predicate Delivers(speak: Speaker, id: string, questions: seq<string>, from: nat, i: int) {
    && from <= i < |questions|
    && i != 0
    && speak(questions[i], AudioPrefix(id, i)).Spoken?
  }

  /** The outcome of the loop: the store, and the positions for which
      synthesis was requested, in request order. */
  datatype PrefetchRun = PrefetchRun(store: Store, requested: seq<nat>)

  /** The body of one loop iteration once synthesis has answered: cache the
      path of a valid result, ignore an invalid one. */
  function CacheIfSpoken(st: Store, id: string, index: nat, speech: Speech): (st': Store)
    ensures StoreSameProgress(st, st')
    ensures forall other :: other in st && other != id ==> st'[other] == st[other]
    ensures id !in st ==> st' == st
    ensures id in st ==> st'[id].feedback == st[id].feedback
    ensures id in st ==>
      st'[id].audio == (if speech.Spoken? then st[id].audio[index := speech.path] else st[id].audio)
  {
    match speech
    case Spoken(p) => SetCachedAudio(st, id, index, p)
    case SpeechFailed(_) => st
  }

  /** Iterations `from`, ..., `len(questions) - 1` of the `prefetch_tts` loop.
      Position 0 is skipped; a failed synthesis writes nothing and the loop
      goes on with the next position. */
  function PrefetchFrom(st: Store, id: string, questions: seq<string>, speak: Speaker, from: nat): (r: PrefetchRun)
    ensures StoreSameProgress(st, r.store)
    ensures forall other :: other in st && other != id ==> r.store[other] == st[other]
    ensures id !in st ==> r.store == st
    ensures id in st ==> r.store[id].feedback == st[id].feedback
    ensures r.requested == Range(if from == 0 then 1 else from, |questions|)
    decreases |questions| - from
  {
    if from >= |questions| then PrefetchRun(st, [])
    else if from == 0 then PrefetchFrom(st, id, questions, speak, 1)
    else
      var st1 := CacheIfSpoken(st, id, from, speak(questions[from], AudioPrefix(id, from)));
      var rest := PrefetchFrom(st1, id, questions, speak, from + 1);
      PrefetchRun(rest.store, [from] + rest.requested)
  }

  /** The audio the loop leaves behind: position i gains the path of a valid
      synthesis of question i under `q_{id}_{i}` exactly when i is a
      non-first position the loop reached; every other entry is untouched. */
  lemma {:induction false} PrefetchCachesExactly(
    st: Store, id: string, questions: seq<string>, speak: Speaker, from: nat)
    requires id in st
    ensures var a, a' := st[id].audio, PrefetchFrom(st, id, questions, speak, from).store[id].audio;
      && (forall i :: i in a' <==> i in a || Delivers(speak, id, questions, from, i))
      && (forall i :: i in a' ==>
            a'[i] == if Delivers(speak, id, questions, from, i)
                     then speak(questions[i], AudioPrefix(id, i)).path
                     else a[i])
    decreases |questions| - from
  {
    if from < |questions| {
      if from == 0 {
        PrefetchCachesExactly(st, id, questions, speak, 1);
        forall i ensures Delivers(speak, id, questions, 0, i) <==> Delivers(speak, id, questions, 1, i) {
        }
      } else {
        var speech := speak(questions[from], AudioPrefix(id, from));
        var st1 := CacheIfSpoken(st, id, from, speech);
        PrefetchCachesExactly(st1, id, questions, speak, from + 1);
        var a' := PrefetchFrom(st, id, questions, speak, from).store[id].audio;
        assert a' == PrefetchFrom(st1, id, questions, speak, from + 1).store[id].audio;
        PrefetchStepAudio(st[id].audio, st1[id].audio, a', id, questions, speak, from);
      }
    }
  }

  /** One iteration of the loop, on the audio map alone: if the rest of the
      loop (from `from + 1`) caches exactly what it delivers on top of `a1`,
      and `a1` is `a` after iteration `from`, the loop from `from` caches
      exactly what it delivers on top of `a`. */
  lemma PrefetchStepAudio(a: map<int, string>, a1: map<int, string>, a': map<int, string>,
                          id: string, questions: seq<string>, speak: Speaker, from: nat)
    requires 0 < from < |questions|
    requires var speech := speak(questions[from], AudioPrefix(id, from));
      a1 == if speech.Spoken? then a[from := speech.path] else a
    requires forall i :: i in a' <==> i in a1 || Delivers(speak, id, questions, from + 1, i)
    requires forall i :: i in a' ==>
      a'[i] == if Delivers(speak, id, questions, from + 1, i)
               then speak(questions[i], AudioPrefix(id, i)).path
               else a1[i]
    ensures forall i :: i in a' <==> i in a || Delivers(speak, id, questions, from, i)
    ensures forall i :: i in a' ==>
      a'[i] == if Delivers(speak, id, questions, from, i)
               then speak(questions[i], AudioPrefix(id, i)).path
               else a[i]
  {
    forall i
      ensures i in a' <==> i in a || Delivers(speak, id, questions, from, i)
      ensures i in a' ==> a'[i] == if Delivers(speak, id, questions, from, i)
                                  then speak(questions[i], AudioPrefix(id, i)).path
                                  else a[i]
    {
      if i != from {
        assert Delivers(speak, id, questions, from, i) <==> Delivers(speak, id, questions, from + 1, i);
      }
    }
  }

  /** `prefetch_tts(session_id, questions)`. */
  function PrefetchTts(st: Store, id: string, questions: seq<string>, speak: Speaker): (r: PrefetchRun)
    ensures StoreSameProgress(st, r.store)
    ensures r.requested == Range(1, |questions|)
  {
    PrefetchFrom(st, id, questions, speak, 0)
  }

  /** The prefetch never consults the synthesizer for the first question nor
      for anything other than (question i, `q_{id}_{i}`): two synthesizers
      that agree there produce the same run. */
  lemma {:induction false} PrefetchConsultsOnlyRequested(
    st: Store, id: string, questions: seq<string>, s1: Speaker, s2: Speaker, from: nat)
    requires forall i :: 1 <= i < |questions| && from <= i ==>
               s1(questions[i], AudioPrefix(id, i)) == s2(questions[i], AudioPrefix(id, i))
    ensures PrefetchFrom(st, id, questions, s1, from) == PrefetchFrom(st, id, questions, s2, from)
    decreases |questions| - from
  {
    if from < |questions| {
      if from == 0 {
        PrefetchConsultsOnlyRequested(st, id, questions, s1, s2, 1);
      } else {
        var st1 := CacheIfSpoken(st, id, from, s1(questions[from], AudioPrefix(id, from)));
        PrefetchConsultsOnlyRequested(st1, id, questions, s1, s2, from + 1);
      }
    }
  }

  // ---------------------------------------------------------------------
  // process_answer_evaluation
  // ---------------------------------------------------------------------

  /** `process_answer_evaluation`: the grade is written at exactly `index`;
      if the evaluator raises, nothing is written. */
  function ProcessAnswerEvaluation(st: Store, id: string, index: int, question: string, answer: string, grade: Evaluator): (st': Store)
    ensures StoreSameProgress(st, st')
    ensures forall other :: other in st && other != id ==> st'[other] == st[other]
    ensures grade(question, answer).None? ==> st' == st
    ensures id in st ==> st'[id].audio == st[id].audio
    ensures id in st ==>
      st'[id].feedback == (if grade(question, answer).Some?
                           then st[id].feedback[index := grade(question, answer).value]
                           else st[id].feedback)
  {
    match grade(question, answer)
    case None => st
    case Some(fb) =>
      var st' := AddFeedback(st, id, index, fb);
      assert id in st ==> st'[id].feedback == st[id].feedback[index := fb];
      st'
  }

  // ---------------------------------------------------------------------
  // Scheduled jobs, run one after another in any order
  // ---------------------------------------------------------------------

  /** A background task handed to the scheduler. */
  datatype Job =
    | Prefetch(id: string, questions: seq<string>)
    | Grade(id: string, index: int, question: string, answer: string)

  /** The collaborators the background tasks call. */
  datatype Services = Services(speak: Speaker, grade: Evaluator)

  function RunJob(st: Store, job: Job, svc: Services): (st': Store)
    ensures StoreSameProgress(st, st')
  {
    match job
    case Prefetch(id, questions) => PrefetchTts(st, id, questions, svc.speak).store
    case Grade(id, index, question, answer) =>
      ProcessAnswerEvaluation(st, id, index, question, answer, svc.grade)
  }

  /** Running the jobs in the order given; any order of the same jobs is
      just another sequence. */
  function RunJobs(st: Store, jobs: seq<Job>, svc: Services): (st': Store)
    ensures StoreSameProgress(st, st')
    decreases |jobs|
  {
    if jobs == [] then st else RunJobs(RunJob(st, jobs[0], svc), jobs[1..], svc)
  }

  /** A job only targets positions of its session's question list. */
  predicate JobFits(st: Store, job: Job) {
    match job
    case Prefetch(id, questions) => id in st ==> questions == st[id].questions
    case Grade(id, index, _, _) => id in st ==> 0 <= index < |st[id].questions|
  }

  lemma JobFitsStable(st: Store, st': Store, job: Job)
    requires StoreSameProgress(st, st') && JobFits(st, job)
    ensures JobFits(st', job)
  {
  }

  /** Any fitting job keeps the store valid. */
  lemma RunJobPreservesValid(st: Store, job: Job, svc: Services)
    requires StoreValid(st) && JobFits(st, job)
    ensures StoreValid(RunJob(st, job, svc))
  {
    var st' := RunJob(st, job, svc);
    forall k | k in st'
      ensures st'[k].id == k && Valid(st'[k]) && KeysInRange(st'[k])
    {
      assert SameProgress(st[k], st'[k]);
      match job
      case Prefetch(id, questions) => {
        if k == id {
          PrefetchCachesExactly(st, id, questions, svc.speak, 0);
        }
      }
      case Grade(id, index, question, answer) => {
      }
    }
  }

  /** The background tasks, run in any order, never change a session's id,
      questions, pointer, answers or completion, and keep the store valid. */
  lemma {:induction false} RunJobsPreservesValid(st: Store, jobs: seq<Job>, svc: Services)
    requires StoreValid(st)
    requires forall k :: 0 <= k < |jobs| ==> JobFits(st, jobs[k])
    ensures StoreValid(RunJobs(st, jobs, svc))
    decreases |jobs|
  {
    if jobs != [] {
      var st1 := RunJob(st, jobs[0], svc);
      RunJobPreservesValid(st, jobs[0], svc);
      forall k | 0 <= k < |jobs[1..]| ensures JobFits(st1, jobs[1..][k]) {
        JobFitsStable(st, st1, jobs[k + 1]);
      }
      RunJobsPreservesValid(st1, jobs[1..], svc);
    }
  }

  /** Grades for different positions, or different sessions, may land in
      either order. */
  lemma GradesCommute(st: Store, a: Job, b: Job, svc: Services)
    requires a.Grade? && b.Grade? && (a.id != b.id || a.index != b.index)
    ensures RunJob(RunJob(st, a, svc), b, svc) == RunJob(RunJob(st, b, svc), a, svc)
  {
    var ga, gb := svc.grade(a.question, a.answer), svc.grade(b.question, b.answer);
    if ga.Some? && gb.Some? {
      if a.id == b.id {
        AddFeedbackCommutes(st, a.id, a.index, b.index, ga.value, gb.value);
      } else {
        var x := AddFeedback(AddFeedback(st, a.id, a.index, ga.value), b.id, b.index, gb.value);
        var y := AddFeedback(AddFeedback(st, b.id, b.index, gb.value), a.id, a.index, ga.value);
        assert x.Keys == y.Keys;
        forall k | k in x ensures x[k] == y[k] {
        }
        assert x == y;
      }
    }
  }

  /** Each cache write of the prefetch loop may land before or after a
      submit for any session: the two orders reach the same state. */
  lemma CacheCommutesWithSubmit(st: Store, id: string, index: nat, speech: Speech, sid: string, answer: string)
    ensures var r := SubmitAnswer(st, sid, answer, None);
      SubmitAnswer(CacheIfSpoken(st, id, index, speech), sid, answer, None)
        == (r.0, CacheIfSpoken(r.1, id, index, speech))
  {
    if speech.Spoken? {
      SubmitCommutesWithAudio(st, sid, answer, id, index, speech.path);
    }
  }

  /** A grading write racing with a submit reaches the same state in either
      order. */
  lemma GradeCommutesWithSubmit(st: Store, job: Job, svc: Services, sid: string, answer: string)
    requires job.Grade?
    ensures var r := SubmitAnswer(st, sid, answer, None);
      && SubmitAnswer(RunJob(st, job, svc), sid, answer, None).0 == r.0
      && SubmitAnswer(RunJob(st, job, svc), sid, answer, None).1 == RunJob(r.1, job, svc)
  {
    var g := svc.grade(job.question, job.answer);
    if g.Some? {
      SubmitCommutesWithFeedback(st, sid, answer, job.id, job.index, g.value);
    }
  }
}

=== FILE: interview.dfy ===
/** The three interview endpoints: `/start` registers a session and speaks
    its first question, `/next` records one transcribed answer and serves
    the following question, `/feedback` returns the grading report. Each
    endpoint is a pure function from the store to a reply, the new store and
    the background jobs it schedules. The document-to-questions pipeline,
    file uploads and transcription are collaborators: `/start` receives the
    generated questions and `/next` the transcript. */
module InterviewApi {
  import opened Outcomes
  import opened Text
  import opened SessionManager
  import opened BackgroundTasks

  /** Why an endpoint answered with an HTTP error. */
  datatype ApiError =
    | NoQuestions                 // the generator returned an empty list
    | SpeechError(error: string)  // synthesis of the first question failed
    | SessionNotFound             // unknown session id
    | NotFoundOrFinished          // no current question (or an empty one)
    | SessionInvalid              // submit_answer refused the answer
    | MissingAudioPath            // synthesis failed while serving the next question

  /** The HTTP status code each error is reported with. */
  function Status(e: ApiError): (code: nat)
    ensures code == 404 <==> e.SessionNotFound? || e.NotFoundOrFinished? || e.SessionInvalid?
    ensures code != 404 ==> code == 500
  {
    match e
    case SessionNotFound => 404
    case NotFoundOrFinished => 404
    case SessionInvalid => 404
    case _ => 500
  }

  /** `StartResponse`. */
  datatype StartReply = StartReply(
    sessionId: string, message: string, currentQuestion: string, audioPath: string, totalQuestions: nat)

  /** `NextQuestionResponse`. */
  datatype NextReply = NextReply(
    isFinished: bool, message: string, nextQuestion: Option<string>, audioPath: Option<string>, progress: string)

  /** What an endpoint hands back: the reply or error, the store afterwards,
      and the background jobs that run once the reply has been sent. A
      request that ends in an error schedules nothing. */
  datatype Response<T> = Response(reply: Result<T, ApiError>, store: Store, jobs: seq<Job>)

  const Unintelligible: string := "[Audio Unintelligible]"

  // ---------------------------------------------------------------------
  // /start
  // ---------------------------------------------------------------------

  /** `start_interview` from the generated questions on: reject an empty
      list, register the session under `id`, speak question 0 as `q_{id}_0`,
      and on success schedule the prefetch of every other question. */
  function StartInterview(st: Store, id: string, questions: seq<string>, speak: Speaker): (r: Response<StartReply>)
    ensures questions == [] ==> r == Response(Err(NoQuestions), st, [])
    ensures questions != [] ==> r.store == Create(st, id, questions)
    ensures r.reply.Ok? <==> questions != [] && speak(questions[0], AudioPrefix(id, 0)).Spoken?
    ensures r.reply.Ok? ==> && r.reply.value.sessionId == id
                            && r.reply.value.currentQuestion == questions[0]
                            && r.reply.value.audioPath == speak(questions[0], AudioPrefix(id, 0)).path
                            && r.reply.value.totalQuestions == |questions|
                            && r.jobs == [Prefetch(id, questions)]
    ensures r.reply.Err? ==> r.jobs == []
  {
    if questions == [] then Response(Err(NoQuestions), st, [])
    else
      var st' := Create(st, id, questions);
      match speak(questions[0], AudioPrefix(id, 0))
      case SpeechFailed(e) => Response(Err(SpeechError(e)), st', [])
      case Spoken(path) =>
        Response(Ok(StartReply(id, "Interview started successfully.", questions[0], path, |questions|)),
                 st', [Prefetch(id, questions)])
  }

  // ---------------------------------------------------------------------
  // /next
  // ---------------------------------------------------------------------

  /** The answer recorded for a transcript: an empty transcript (the
      transcriber's failure signal) becomes a placeholder. */
  function AnswerText(transcript: string): (a: string)
    ensures a != []
    ensures transcript != [] ==> a == transcript
    ensures transcript == [] ==> a == Unintelligible
  {
    if transcript == [] then Unintelligible else transcript
  }

  /** `if cached_audio_path:`: a cached entry counts only when its path is
      non-empty. */
  predicate HasCachedAudio(st: Store, id: string, index: nat) {
    GetCachedAudio(st, id, index).Some? && GetCachedAudio(st, id, index).value != []
  }

  /** Step 7 of `next_question`: the audio for the question now current,
      served from the prefetch cache when a non-empty path is there, and
      otherwise synthesized on the spot; `None` when that synthesis fails. */
  function NextAudio(st: Store, id: string, question: string, index: nat, speak: Speaker): (p: Option<string>)
    ensures HasCachedAudio(st, id, index) ==> p == Some(st[id].audio[index])
    ensures !HasCachedAudio(st, id, index) ==> (p.Some? <==> speak(question, AudioPrefix(id, index)).Spoken?)
    ensures !HasCachedAudio(st, id, index) && p.Some? ==> p.value == speak(question, AudioPrefix(id, index)).path
  {
    var cached := GetCachedAudio(st, id, index);
    if cached.Some? && cached.value != [] then cached
    else
      match speak(question, AudioPrefix(id, index))
      case Spoken(path) => Some(path)
      case SpeechFailed(_) => None
  }

  /** Whether a `/next` request got as far as recording the answer: it
      either succeeded or failed only for want of the next audio file. */
  predicate Recorded(r: Response<NextReply>) {
    r.reply.Ok? || r.reply.error == MissingAudioPath
  }

  /** `next_question` from the transcript on. */
  function NextQuestion(st: Store, id: string, transcript: string, speak: Speaker): (r: Response<NextReply>)
    ensures id !in st ==> r == Response(Err(SessionNotFound), st, [])
    ensures id in st && (CurrentQuestion(st, id).None? || CurrentQuestion(st, id).value == []) ==>
      r == Response(Err(NotFoundOrFinished), st, [])
    ensures id in st && CurrentQuestion(st, id).Some? && CurrentQuestion(st, id).value != [] ==>
      (r.reply.Err? && r.reply.error == SessionInvalid <==> st[id].completed)
    ensures id in st && CurrentQuestion(st, id).Some? && CurrentQuestion(st, id).value != [] && !st[id].completed ==>
      Recorded(r)
    ensures !Recorded(r) ==> r.store == st && r.jobs == []
    ensures Recorded(r) ==>
      && id in st && st[id].index < |st[id].questions| && !st[id].completed
      && r.store == SubmitAnswer(st, id, AnswerText(transcript), None).1
    ensures r.reply.Err? ==> r.jobs == []
    ensures r.reply.Ok? ==>
      && r.jobs == [Grade(id, st[id].index, st[id].questions[st[id].index], AnswerText(transcript))]
      && (r.reply.value.isFinished <==> st[id].index + 1 == |st[id].questions|)
    ensures Recorded(r) && st[id].index + 1 == |st[id].questions| ==> r.reply.Ok? && r.reply.value.isFinished
    ensures r.reply.Ok? && r.reply.value.isFinished ==>
      r.reply.value.nextQuestion == None && r.reply.value.audioPath == None && r.reply.value.progress == "Done"
    ensures Recorded(r) && st[id].index + 1 < |st[id].questions| ==>
      var next, cur := st[id].questions[st[id].index + 1], st[id].index + 1;
      && (r.reply.Ok? <==> NextAudio(r.store, id, next, cur, speak).Some?)
      && (r.reply.Ok? ==> r.reply.value == NextReply(false, "Answer recorded.", Some(next),
                                                      NextAudio(r.store, id, next, cur, speak), NatToString(cur + 1)))
  {
    if id !in st then Response(Err(SessionNotFound), st, [])
    else
      var answer := AnswerText(transcript);
      match CurrentQuestion(st, id)
      case None => Response(Err(NotFoundOrFinished), st, [])
      case Some(q) =>
        if q == [] then Response(Err(NotFoundOrFinished), st, [])
        else
          var idx := st[id].index;
          var (ok, st') := SubmitAnswer(st, id, answer, None);
          if !ok then Response(Err(SessionInvalid), st, [])
          else
            var jobs := [Grade(id, idx, q, answer)];
            if IsFinished(st', id) then
              Response(Ok(NextReply(true, "Interview completed. You can now request feedback.", None, None, "Done")),
                       st', jobs)
            else
              match CurrentQuestion(st', id)
              case None => Response(Err(MissingAudioPath), st', [])
              case Some(next) =>
                var cur := st'[id].index;
                match NextAudio(st', id, next, cur, speak)
                case None => Response(Err(MissingAudioPath), st', [])
                case Some(path) =>
                  Response(Ok(NextReply(false, "Answer recorded.", Some(next), Some(path), NatToString(cur + 1))),
                           st', jobs)
  }

  // ---------------------------------------------------------------------
  // /feedback
  // ---------------------------------------------------------------------

  /** `get_feedback`: the report of an existing session, 404 otherwise. */
  function GetFeedback(st: Store, id: string): (r: Result<seq<Feedback>, ApiError>)
    ensures r.Err? <==> id !in st
    ensures r.Err? ==> r.error == SessionNotFound
    ensures r.Ok? ==> r.value == FeedbackReport(st[id].feedback)
  {
    match AllFeedback(st, id)
    case None => Err(SessionNotFound)
    case Some(report) => Ok(report)
  }

  // ---------------------------------------------------------------------
  // Properties of the endpoints
  // ---------------------------------------------------------------------

  /** `/start` keeps the store valid, the question it announces is the one
      the new session serves, and the job it schedules fits the session. */
  lemma StartPreservesValid(st: Store, id: string, questions: seq<string>, speak: Speaker)
    requires StoreValid(st)
    ensures var r := StartInterview(st, id, questions, speak);
      && StoreValid(r.store)
      && (forall k :: 0 <= k < |r.jobs| ==> JobFits(r.store, r.jobs[k]))
      && (r.reply.Ok? ==> CurrentQuestion(r.store, id) == Some(r.reply.value.currentQuestion)
                          && !IsFinished(r.store, id)
                          && |r.store[id].questions| == r.reply.value.totalQuestions)
  {
    if questions != [] {
      CreateFresh(st, id, questions);
    }
  }

  /** `/next` keeps the store valid and the grading job it schedules targets
      a position of the session's question list. */
  lemma NextPreservesValid(st: Store, id: string, transcript: string, speak: Speaker)
    requires StoreValid(st)
    ensures var r := NextQuestion(st, id, transcript, speak);
      && StoreValid(r.store)
      && (forall k :: 0 <= k < |r.jobs| ==> JobFits(r.store, r.jobs[k]))
  {
    SubmitPreservesValid(st, id, AnswerText(transcript), None);
  }

  /** On a valid store the "Session invalid" branch is dead: a session with
      a current question is never completed. */
  lemma NextNeverInvalid(st: Store, id: string, transcript: string, speak: Speaker)
    requires StoreValid(st)
    ensures var r := NextQuestion(st, id, transcript, speak);
      r.reply.Err? ==> r.reply.error != SessionInvalid
  {
  }

  /** A `/next` reply that is not the last agrees with the store it leaves:
      it serves the session's new current question, and its progress string
      spells the 1-based position of that question. */
  lemma NextReplyMatchesStore(st: Store, id: string, transcript: string, speak: Speaker)
    ensures var r := NextQuestion(st, id, transcript, speak);
      r.reply.Ok? && !r.reply.value.isFinished ==>
        && id in r.store
        && r.reply.value.nextQuestion == CurrentQuestion(r.store, id)
        && AllDigits(r.reply.value.progress)
        && DigitsValue(r.reply.value.progress) == r.store[id].index + 1
  {
    var r := NextQuestion(st, id, transcript, speak);
    if r.reply.Ok? && !r.reply.value.isFinished {
      DigitsValueOfNatToString(r.store[id].index + 1);
    }
  }

  /** The answer recorded by `/next` and the grade its job writes land at
      the same position: the one the question was asked at. */
  lemma GradeLandsWithItsAnswer(st: Store, id: string, transcript: string, speak: Speaker, svc: Services)
    requires StoreValid(st)
    ensures var r := NextQuestion(st, id, transcript, speak);
      var idx := if id in st then st[id].index else 0;
      var q := if id in st && idx < |st[id].questions| then st[id].questions[idx] else [];
      var st' := RunJobs(r.store, r.jobs, svc);
      r.reply.Ok? ==>
        && id in st' && idx < |st'[id].answers|
        && st'[id].answers[idx] == AnswerText(transcript)
        && st'[id].feedback == (if svc.grade(q, AnswerText(transcript)).Some?
                                then r.store[id].feedback[idx := svc.grade(q, AnswerText(transcript)).value]
                                else r.store[id].feedback)
  {
    var r := NextQuestion(st, id, transcript, speak);
    if r.reply.Ok? {
      var job := r.jobs[0];
      assert r.jobs[1..] == [];
      var st1 := RunJob(r.store, job, svc);
      assert RunJobs(r.store, r.jobs, svc) == RunJobs(st1, [], svc) == st1;
      assert SameProgress(r.store[id], st1[id]);
    }
  }

  /** When the question about to be served already has a non-empty cached
      path, `/next` never calls the synthesizer: any two synthesizers give
      the same response. */
  lemma CachedAudioNeedsNoSynthesis(st: Store, id: string, transcript: string, s1: Speaker, s2: Speaker)
    requires id in st && st[id].index + 1 < |st[id].questions|
    requires HasCachedAudio(st, id, st[id].index + 1)
    ensures NextQuestion(st, id, transcript, s1) == NextQuestion(st, id, transcript, s2)
  {
    var r := SubmitAnswer(st, id, AnswerText(transcript), None);
    if r.0 {
      assert r.1[id].audio == st[id].audio;
      assert HasCachedAudio(r.1, id, st[id].index + 1);
    }
  }

  /** The reply and jobs of `/next` depend on the store only through the
      session's progress and the audio it would serve for the next
      question. */
  lemma NextDependsOnProgress(s1: Store, s2: Store, id: string, transcript: string, speak: Speaker)
    requires id in s1 && id in s2 && SameProgress(s1[id], s2[id])
    requires s1[id].index + 1 < |s1[id].questions| ==>
      var cur := s1[id].index + 1;
      NextAudio(s1, id, s1[id].questions[cur], cur, speak) == NextAudio(s2, id, s1[id].questions[cur], cur, speak)
    ensures var a, b := NextQuestion(s1, id, transcript, speak), NextQuestion(s2, id, transcript, speak);
      a.reply == b.reply && a.jobs == b.jobs
  {
    var qs := s1[id].questions;
    var ans := AnswerText(transcript);
    if CurrentQuestion(s1, id).None? || CurrentQuestion(s1, id).value == [] || s1[id].completed {
      // Nothing is recorded on either store; both replies are the same error.
    } else if s1[id].index + 1 == |qs| {
      // Both submits finish the interview.
    } else {
      var cur := s1[id].index + 1;
      var q := qs[cur];
      var r1, r2 := SubmitAnswer(s1, id, ans, None).1, SubmitAnswer(s2, id, ans, None).1;
      assert NextAudio(r1, id, q, cur, speak) == NextAudio(s1, id, q, cur, speak);
      assert NextAudio(r2, id, q, cur, speak) == NextAudio(s2, id, q, cur, speak);
    }
  }

  /** Pre-generation changes nothing the candidate sees: on a session with
      nothing cached yet, running the prefetch job before a `/next` request
      yields the same reply and jobs as not running it, because the cached
      path is exactly what synthesizing on the spot returns. */
  lemma PrefetchIsTransparent(st: Store, id: string, transcript: string, speak: Speaker)
    requires id in st && st[id].audio == map[]
    ensures var pre := PrefetchTts(st, id, st[id].questions, speak).store;
      var a, b := NextQuestion(pre, id, transcript, speak), NextQuestion(st, id, transcript, speak);
      a.reply == b.reply && a.jobs == b.jobs
  {
    var qs := st[id].questions;
    var pre := PrefetchTts(st, id, qs, speak).store;
    PrefetchCachesExactly(st, id, qs, speak, 0);
    assert SameProgress(pre[id], st[id]);
    if st[id].index + 1 < |qs| {
      var cur := st[id].index + 1;
      assert NextAudio(pre, id, qs[cur], cur, speak) == NextAudio(st, id, qs[cur], cur, speak);
    }
    NextDependsOnProgress(pre, st, id, transcript, speak);
  }

  /** If the audio a store would serve for the next question is there
      whenever another store with the same progress has it, a `/next` that
      succeeds on the other store succeeds on this one with the same jobs
      and the same reply apart from the audio path. */
  lemma NextOkCarriesOver(s1: Store, s2: Store, id: string, transcript: string, speak: Speaker)
    requires id in s1 && id in s2 && SameProgress(s1[id], s2[id])
    requires s1[id].index + 1 < |s1[id].questions| ==>
      var cur := s1[id].index + 1;
      NextAudio(s2, id, s1[id].questions[cur], cur, speak).Some? ==>
        NextAudio(s1, id, s1[id].questions[cur], cur, speak).Some?
    ensures var a, b := NextQuestion(s1, id, transcript, speak), NextQuestion(s2, id, transcript, speak);
      b.reply.Ok? ==> a.reply.Ok? && a.jobs == b.jobs
                      && a.reply.value == b.reply.value.(audioPath := a.reply.value.audioPath)
  {
    var qs := s1[id].questions;
    var ans := AnswerText(transcript);
    if CurrentQuestion(s1, id).None? || CurrentQuestion(s1, id).value == [] || s1[id].completed {
      // Both replies are the same error.
    } else if s1[id].index + 1 == |qs| {
      // Both submits finish the interview.
    } else {
      var cur := s1[id].index + 1;
      var q := qs[cur];
      var r1, r2 := SubmitAnswer(s1, id, ans, None).1, SubmitAnswer(s2, id, ans, None).1;
      assert NextAudio(r1, id, q, cur, speak) == NextAudio(s1, id, q, cur, speak);
      assert NextAudio(r2, id, q, cur, speak) == NextAudio(s2, id, q, cur, speak);
    }
  }

  /** Pre-generation never costs the candidate a question, whatever the
      synthesizer does: with nothing cached yet, if `/next` succeeds without
      the prefetch job, it also succeeds after a prefetch run by a possibly
      different synthesizer `early`, with the same question, progress and
      jobs. */
  lemma PrefetchNeverHurts(st: Store, id: string, transcript: string, early: Speaker, speak: Speaker)
    requires id in st && st[id].audio == map[]
    ensures var pre := PrefetchTts(st, id, st[id].questions, early).store;
      var a, b := NextQuestion(pre, id, transcript, speak), NextQuestion(st, id, transcript, speak);
      b.reply.Ok? ==> a.reply.Ok? && a.jobs == b.jobs
                      && a.reply.value == b.reply.value.(audioPath := a.reply.value.audioPath)
  {
    var qs := st[id].questions;
    var pre := PrefetchTts(st, id, qs, early).store;
    PrefetchCachesExactly(st, id, qs, early, 0);
    assert SameProgress(pre[id], st[id]);
    if st[id].index + 1 < |qs| {
      var cur := st[id].index + 1;
      assert !HasCachedAudio(st, id, cur);
      if !HasCachedAudio(pre, id, cur) {
        assert NextAudio(pre, id, qs[cur], cur, speak) == NextAudio(st, id, qs[cur], cur, speak);
      }
    }
    NextOkCarriesOver(pre, st, id, transcript, speak);
  }
}

=== FILE: json_utils.dfy ===
/** The text helpers that turn model output into the structured profile:
    `normalize_str`, `safe_int`, the `key: value` parser `parse_kv_to_json`,
    and the part of `safe_json_parse` that strips code fences and locates
    the `{...}` span. */
module JsonUtils {
  import opened Outcomes
  import opened Text

  // ---------------------------------------------------------------------
  // normalize_str
  // ---------------------------------------------------------------------

  /** `c.upper()` on the letters that matter here. No character outside
      'a'..'z' upper-cases to one of 'N', 'A', 'U', 'L' or '/', so the
      marker test below is exact with ASCII upper-casing. */
  function AsciiUpper(c: char): char {
    if 'a' <= c <= 'z' then (c as int - 32) as char else c
  }

  function UpperAscii(s: string): (u: string)
    ensures |u| == |s|
    ensures forall i :: 0 <= i < |s| ==> u[i] == AsciiUpper(s[i])
  {
    seq(|s|, i requires 0 <= i < |s| => AsciiUpper(s[i]))
  }

  /** `s.upper() in ["NA", "N/A", "NULL"]`. */
  predicate IsNullMarker(s: string) {
    var u := UpperAscii(s);
    u == "NA" || u == "N/A" || u == "NULL"
  }

  /** `s` equals the upper-case word `w` up to the case of its letters. */
  predicate CaselessEquals(s: string, w: string) {
    && |s| == |w|
    && forall i :: 0 <= i < |w| ==> s[i] == w[i] || ('A' <= w[i] <= 'Z' && s[i] as int == w[i] as int + 32)
  }

  /** The marker test accepts exactly the three words in any mixture of
      cases, and nothing else. */
  lemma NullMarkerIsCaseless(s: string)
    ensures IsNullMarker(s) <==> CaselessEquals(s, "NA") || CaselessEquals(s, "N/A") || CaselessEquals(s, "NULL")
  {
    var u := UpperAscii(s);
    forall w | w == "NA" || w == "N/A" || w == "NULL"
      ensures u == w <==> CaselessEquals(s, w)
    {
      if CaselessEquals(s, w) {
        forall i | 0 <= i < |w| ensures u[i] == w[i] { }
      }
      if u == w {
        forall i | 0 <= i < |w| ensures s[i] == w[i] || ('A' <= w[i] <= 'Z' && s[i] as int == w[i] as int + 32) {
          assert AsciiUpper(s[i]) == w[i];
        }
      }
    }
  }

  /** `normalize_str(value)`: `None` stays `None`, a null marker (after
      stripping, any case) becomes `None`, anything else is stripped. */
  function NormalizeStr(v: Option<string>): (r: Option<string>)
    ensures v.None? ==> r.None?
    ensures v.Some? ==> (r.None? <==> IsNullMarker(Strip(v.value)))
    ensures r.Some? ==> IsStripped(r.value) && !IsNullMarker(r.value)
    ensures r.Some? ==> r.value == Strip(v.value)
  {
    match v
    case None => None
    case Some(s) => if IsNullMarker(Strip(s)) then None else Some(Strip(s))
  }

  /** Normalising twice is normalising once. */
  lemma NormalizeStrIdempotent(v: Option<string>)
    ensures NormalizeStr(NormalizeStr(v)) == NormalizeStr(v)
  {
    if NormalizeStr(v).Some? {
      StripIdempotent(v.value);
    }
  }

  // ---------------------------------------------------------------------
  // safe_int
  // ---------------------------------------------------------------------

  /** 2^53: every integer of at most this magnitude is a double, so
      `int(float(s))` returns it exactly. */
  const MaxExact: int := 0x20_0000_0000_0000

  /** An optional sign followed by one or more ASCII digits, with its value. */
  function IntLiteral(s: string): (r: Option<int>)
    ensures r.Some? ==> s != [] && AllDigits(if s[0] == '+' || s[0] == '-' then s[1..] else s)
    ensures r.Some? && s[0] == '-' ==> r.value <= 0
    ensures r.Some? && s[0] != '-' ==> r.value >= 0
  {
    if s != [] && (s[0] == '+' || s[0] == '-') then
      var d := s[1..];
      if d != [] && AllDigits(d) then
        var m: int := DigitsValue(d);
        Some(if s[0] == '-' then -m else m)
      else None
    else if s != [] && AllDigits(s) then Some(DigitsValue(s))
    else None
  }

  /** Python's `str(n)` for any integer. */
  function IntToString(n: int): (s: string)
    ensures s != [] && IsStripped(s)
  {
    if n < 0 then "-" + NatToString(-n) else NatToString(n)
  }

  /** Reading back a rendered integer gives the integer. */
  lemma IntLiteralOfIntToString(n: int)
    ensures IntLiteral(IntToString(n)) == Some(n)
  {
    if n < 0 {
      var d := NatToString(-n);
      assert IntToString(n) == "-" + d;
      IntLiteralNegative(d);
      DigitsValueOfNatToString(-n);
    } else {
      var d := NatToString(n);
      assert IntToString(n) == d;
      IntLiteralDigits(d);
      DigitsValueOfNatToString(n);
    }
  }

  /** A '-' followed by digits reads as minus their value. */
  lemma IntLiteralNegative(d: string)
    requires d != [] && AllDigits(d)
    ensures IntLiteral("-" + d) == Some(-(DigitsValue(d) as int))
  {
    assert ("-" + d)[1..] == d;
  }

  /** Plain digits read as their value. */
  lemma IntLiteralDigits(d: string)
    requires d != [] && AllDigits(d)
    ensures IntLiteral(d) == Some(DigitsValue(d))
  {
    assert IsDigit(d[0]);
  }

  /** `safe_int(value, default)`: the default for `None`, for a blank or
      null-marker string and for anything `float()` rejects; integer
      literals within 2^53 are read exactly. Every other string goes through
      `int(float(s))`, which is the `floatPath` parameter here (`None`
      standing for a raised exception). */
  function SafeInt(v: Option<string>, default: int, floatPath: string -> Option<int>): (r: int)
    ensures v.None? ==> r == default
    ensures v.Some? && (Strip(v.value) == [] || IsNullMarker(Strip(v.value))) ==> r == default
    ensures v.Some? && Strip(v.value) != [] && !IsNullMarker(Strip(v.value)) ==>
      var lit := IntLiteral(Strip(v.value));
      if lit.Some? && -MaxExact <= lit.value <= MaxExact then r == lit.value
      else r == (if floatPath(Strip(v.value)).Some? then floatPath(Strip(v.value)).value else default)
  {
    match v
    case None => default
    case Some(x) =>
      var s := Strip(x);
      if s == [] || IsNullMarker(s) then default
      else
        var lit := IntLiteral(s);
        if lit.Some? && -MaxExact <= lit.value <= MaxExact then lit.value
        else match floatPath(s)
          case Some(n) => n
          case None => default
  }

  /** A rendered integer ends in a digit, so it is never a null marker. */
  lemma NumberIsNoMarker(n: int)
    ensures !IsNullMarker(IntToString(n))
  {
    var s := IntToString(n);
    var u := UpperAscii(s);
    assert IsDigit(s[|s| - 1]);
    assert IsDigit(u[|u| - 1]);
  }

  /** Any integer within 2^53, rendered and padded with whitespace, is read
      back exactly, whatever the float path would do. */
  lemma SafeIntRoundTrip(n: int, pre: string, post: string, default: int, floatPath: string -> Option<int>)
    requires -MaxExact <= n <= MaxExact
    requires AllSpace(pre) && AllSpace(post)
    ensures SafeInt(Some(pre + IntToString(n) + post), default, floatPath) == n
  {
    var s := IntToString(n);
    assert Strip(pre + s + post) == s by {
      StripPadded(pre, s, post);
    }
    assert IntLiteral(s) == Some(n) && !IsNullMarker(s) by {
      IntLiteralOfIntToString(n);
      NumberIsNoMarker(n);
    }
    SafeIntOfLiteral(pre + s + post, n, default, floatPath);
  }

  /** A value that strips to an exact integer literal reads as that integer. */
  lemma SafeIntOfLiteral(x: string, n: int, default: int, floatPath: string -> Option<int>)
    requires -MaxExact <= n <= MaxExact
    requires Strip(x) != [] && !IsNullMarker(Strip(x)) && IntLiteral(Strip(x)) == Some(n)
    ensures SafeInt(Some(x), default, floatPath) == n
  {
  }

  // ---------------------------------------------------------------------
  // parse_kv_to_json: the key/value map
  // ---------------------------------------------------------------------

  /** One line of `key: value` text: `None` without a ':', otherwise the
      stripped text before the first ':' and the stripped rest. */
  function ParseLine(line: string): (r: Option<(string, string)>)
    ensures r.None? <==> ':' !in line
    ensures r.Some? ==> IsStripped(r.value.0) && IsStripped(r.value.1) && ':' !in r.value.0
  {
    var k := IndexOf(line, ':');
    if k == |line| then None
    else
      var key := Strip(line[..k]);
      assert forall c :: c in key ==> c in line[..k];
      Some((key, Strip(line[k + 1..])))
  }

  /** A line written as key, ':', value, with any whitespace before and
      after each of them, reads back as that key and value. */
  lemma ParseLineRoundTrip(a: string, key: string, b: string, c: string, value: string, d: string)
    requires ':' !in key && key != [] && IsStripped(key) && IsStripped(value)
    requires AllSpace(a) && AllSpace(b) && AllSpace(c) && AllSpace(d)
    ensures ParseLine(a + key + b + ":" + c + value + d) == Some((key, value))
  {
    var head, rest := a + key + b, c + value + d;
    assert a + key + b + ":" + c + value + d == head + [':'] + rest;
    assert ':' !in head by {
      assert !IsSpace(':');
    }
    assert Strip(head) == key by {
      StripPadded(a, key, b);
    }
    assert Strip(rest) == value by {
      if value == [] {
        assert rest == c + d;
        AllSpaceAt(rest, |c|);
        StripEmptyIff(rest);
      } else {
        StripPadded(c, value, d);
      }
    }
    ParseLineSplit(head, rest);
  }

  /** A line whose first ':' follows `head` splits there. */
  lemma ParseLineSplit(head: string, rest: string)
    requires ':' !in head
    ensures ParseLine(head + [':'] + rest) == Some((Strip(head), Strip(rest)))
  {
    var line := head + [':'] + rest;
    IndexOfAfter(head, ':', rest);
    assert line[..|head|] == head && line[|head| + 1..] == rest;
  }

  /** The dict built from already-split lines (`None` for a line without
      ':'), in order: a later entry with a key overwrites an earlier one. */
  function Collect(entries: seq<Option<(string, string)>>): (data: map<string, string>)
    decreases |entries|
  {
    if entries == [] then map[]
    else
      var data := Collect(entries[..|entries| - 1]);
      match entries[|entries| - 1]
      case None => data
      case Some(kv) => data[kv.0 := kv.1]
  }

  /** Entry `i` carries key `k`. */
  predicate HasKey(entries: seq<Option<(string, string)>>, i: int, k: string) {
    0 <= i < |entries| && entries[i].Some? && entries[i].value.0 == k
  }

  /** A key is present exactly when some entry carries it. */
  lemma {:induction false} CollectKeys(entries: seq<Option<(string, string)>>, k: string)
    ensures k in Collect(entries) <==> exists i :: HasKey(entries, i, k)
    decreases |entries|
  {
    if entries != [] {
      var init, n := entries[..|entries| - 1], |entries| - 1;
      CollectKeys(init, k);
      if !HasKey(entries, n, k) {
        if k in Collect(init) {
          var i :| HasKey(init, i, k);
          assert HasKey(entries, i, k);
        }
        if i :| HasKey(entries, i, k) {
          assert HasKey(init, i, k);
        }
      }
    }
  }

  /** The value of a key is the one on the last entry that carries it. */
  lemma {:induction false} CollectLastWins(entries: seq<Option<(string, string)>>, k: string, i: nat)
    requires HasKey(entries, i, k)
    requires forall j :: i < j < |entries| ==> !HasKey(entries, j, k)
    ensures k in Collect(entries) && Collect(entries)[k] == entries[i].value.1
    decreases |entries|
  {
    var init, n := entries[..|entries| - 1], |entries| - 1;
    if i < n {
      assert !HasKey(entries, n, k);
      assert HasKey(init, i, k);
      forall j | i < j < |init| ensures !HasKey(init, j, k) {
        assert !HasKey(entries, j, k);
      }
      CollectLastWins(init, k, i);
    }
  }

  /** Every line of the text, parsed. */
  function ParseLines(lines: seq<string>): (entries: seq<Option<(string, string)>>)
    ensures |entries| == |lines|
    ensures forall i :: 0 <= i < |lines| ==> entries[i] == ParseLine(lines[i])
  {
    seq(|lines|, i requires 0 <= i < |lines| => ParseLine(lines[i]))
  }

  /** The `data` dict `parse_kv_to_json` builds from `text`: lines as
      `splitlines()` cuts them, each parsed, a later key overwriting. */
  function ParseKvText(text: string): (data: map<string, string>)
    ensures forall k :: k in data ==> IsStripped(k) && ':' !in k && IsStripped(data[k])
  {
    var entries := ParseLines(SplitLines(text));
    var data := Collect(entries);
    assert forall k :: k in data ==> IsStripped(k) && ':' !in k && IsStripped(data[k]) by {
      forall k | k in data
        ensures IsStripped(k) && ':' !in k && IsStripped(data[k])
      {
        CollectFrom(entries, k);
      }
    }
    data
  }

  /** Every entry of the dict comes from some entry of the list. */
  lemma {:induction false} CollectFrom(entries: seq<Option<(string, string)>>, k: string)
    requires k in Collect(entries)
    ensures exists i :: 0 <= i < |entries| && entries[i] == Some((k, Collect(entries)[k]))
    decreases |entries|
  {
    var init := entries[..|entries| - 1];
    var last := entries[|entries| - 1];
    if last.Some? && last.value.0 == k {
      assert entries[|entries| - 1] == Some((k, Collect(entries)[k]));
    } else {
      CollectFrom(init, k);
      var i :| 0 <= i < |init| && init[i] == Some((k, Collect(init)[k]));
      assert entries[i] == init[i];
    }
  }

  /** Parsing newline-terminated lines sees exactly those lines. */
  lemma ParseKvTextOfLines(lines: seq<string>)
    requires forall i :: 0 <= i < |lines| ==> NoLineBreak(lines[i])
    ensures ParseKvText(Terminated(lines)) == Collect(ParseLines(lines))
  {
    SplitLinesTerminated(lines);
  }

  /** The same when the last line has no line break after it. */
  lemma ParseKvTextOfUnterminated(lines: seq<string>, last: string)
    requires forall i :: 0 <= i < |lines| ==> NoLineBreak(lines[i])
    requires last != [] && NoLineBreak(last)
    ensures ParseKvText(Terminated(lines) + last) == Collect(ParseLines(lines + [last]))
  {
    SplitLinesUnterminated(lines, last);
  }

  /** A key on the last line of the text is read, whether or not a line
      break ends the text, and overrides any earlier line with that key. */
  lemma LastLineWins(lines: seq<string>, last: string, key: string, value: string)
    requires forall i :: 0 <= i < |lines| ==> NoLineBreak(lines[i])
    requires NoLineBreak(last) && ParseLine(last) == Some((key, value))
    ensures Get(ParseKvText(Terminated(lines) + last), key) == Some(value)
    ensures Get(ParseKvText(Terminated(lines + [last])), key) == Some(value)
  {
    var data := Collect(ParseLines(lines + [last]));
    assert key in data && data[key] == value by {
      ParseLinesSnoc(lines, last);
      CollectSnoc(ParseLines(lines), key, value);
    }
    assert ParseKvText(Terminated(lines) + last) == data by {
      assert last != [];
      ParseKvTextOfUnterminated(lines, last);
    }
    assert ParseKvText(Terminated(lines + [last])) == data by {
      NoLineBreakSnoc(lines, last);
      ParseKvTextOfLines(lines + [last]);
    }
  }

  /** Parsing one more line appends its entry. */
  lemma ParseLinesSnoc(lines: seq<string>, last: string)
    ensures ParseLines(lines + [last]) == ParseLines(lines) + [ParseLine(last)]
  {
    var l := lines + [last];
    assert forall i :: 0 <= i < |lines| ==> l[i] == lines[i];
    assert l[|lines|] == last;
  }

  /** A last entry with a key sets that key. */
  lemma CollectSnoc(entries: seq<Option<(string, string)>>, key: string, value: string)
    ensures Collect(entries + [Some((key, value))]) == Collect(entries)[key := value]
  {
    var e := entries + [Some((key, value))];
    assert e[..|e| - 1] == entries;
  }

  // ---------------------------------------------------------------------
  // parse_kv_to_json: the profile record
  // ---------------------------------------------------------------------

  datatype User = User(name: Option<string>, email: Option<string>, mobileNo: Option<string>, linkedin: Option<string>)
  datatype Profile = Profile(headline: Option<string>, location: Option<string>, experienceYears: int, summary: string)
  datatype Employment = Employment(title: Option<string>, company: Option<string>, description: Option<string>)
  datatype Education = Education(degree: Option<string>, institution: Option<string>)

  /** The dict `parse_kv_to_json` returns. */
  datatype ResumeJson = ResumeJson(
    user: User, profile: Profile, skills: seq<string>,
    employments: seq<Employment>, educations: seq<Education>)

  /** `.split` called on the `None` that a null-marker skills value
      normalises to. */
  datatype KvError = SkillsNotApplicable

  /** The skills list from the value of `skills` (`data.get("skills") or ""`):
      comma-separated, each part stripped, blank parts dropped. */
  function SkillsOf(value: string): (r: Result<seq<string>, KvError>)
    ensures r.Err? <==> IsNullMarker(Strip(value))
    ensures r.Ok? ==> forall i :: 0 <= i < |r.value| ==>
      r.value[i] != [] && IsStripped(r.value[i]) && ',' !in r.value[i]
  {
    match NormalizeStr(Some(value))
    case None => Err(SkillsNotApplicable)
    case Some(n) =>
      var parts := Split(n, ',');
      StrippedNonBlankAvoids(parts, ',');
      Ok(StrippedNonBlank(parts))
  }

  /** A list of clean skill names, joined by a comma and any whitespace (as
      in `"Python, SQL"`) and padded by whitespace at either end, reads back
      as that list, unless the whole value is a null marker. */
  lemma SkillsRoundTrip(skills: seq<string>, pad: string, pre: string, post: string)
    requires forall i :: 0 <= i < |skills| ==> skills[i] != [] && IsStripped(skills[i]) && ',' !in skills[i]
    requires AllSpace(pad) && AllSpace(pre) && AllSpace(post)
    requires !IsNullMarker(Join(skills, [','] + pad))
    ensures SkillsOf(pre + Join(skills, [','] + pad) + post) == Ok(skills)
  {
    var j := Join(skills, [','] + pad);
    var v := pre + j + post;
    if skills == [] {
      assert v == pre + post;
      AllSpaceAt(v, |pre|);
      SkillsOfBlank(v);
    } else {
      assert ',' !in pad by {
        assert !IsSpace(',');
      }
      JoinStripped(skills, [','] + pad);
      StripPadded(pre, j, post);
      SplitJoinPadded(skills, ',', pad);
      SkillsOfStripped(v);
    }
  }

  /** An all-whitespace value lists no skills. */
  lemma SkillsOfBlank(v: string)
    requires AllSpace(v)
    ensures SkillsOf(v) == Ok([])
  {
    StripEmptyIff(v);
    SkillsOfStripped(v);
    assert Split([], ',') == [[]];
  }

  /** `SkillsOf` on a value that is not a null marker once stripped. */
  lemma SkillsOfStripped(v: string)
    requires !IsNullMarker(Strip(v))
    ensures SkillsOf(v) == Ok(StrippedNonBlank(Split(Strip(v), ',')))
  {
  }

  /** `data.get("skills") or ""`. */
  function SkillsValue(data: map<string, string>): (v: string)
    ensures v == [] || ("skills" in data && v == data["skills"])
    ensures IsNullMarker(v) <==> "skills" in data && IsNullMarker(data["skills"])
  {
    if "skills" in data && data["skills"] != [] then data["skills"] else ""
  }

  /** `parse_kv_to_json(text)`; the only way it raises is a null-marker
      skills value. */
  function ParseKvToJson(text: string, floatPath: string -> Option<int>): (r: Result<ResumeJson, KvError>)
    ensures var data := ParseKvText(text);
      r.Err? <==> "skills" in data && IsNullMarker(data["skills"])
    ensures r.Ok? ==> var data, j := ParseKvText(text), r.value;
      && j.user == User(NormalizeStr(Get(data, "name")), NormalizeStr(Get(data, "email")),
                        NormalizeStr(Get(data, "mobile")), NormalizeStr(Get(data, "linkedin")))
      && j.profile == Profile(NormalizeStr(Get(data, "headline")), NormalizeStr(Get(data, "location")),
                              SafeInt(Get(data, "experience_years"), 0, floatPath), "")
      && j.employments == [Employment(NormalizeStr(Get(data, "employment_1_title")),
                                      NormalizeStr(Get(data, "employment_1_company")),
                                      NormalizeStr(Get(data, "employment_1_description")))]
      && j.educations == [Education(NormalizeStr(Get(data, "education_1_degree")),
                                    NormalizeStr(Get(data, "education_1_institution")))]
      && (forall i :: 0 <= i < |j.skills| ==> j.skills[i] != [] && IsStripped(j.skills[i]) && ',' !in j.skills[i])
    ensures r.Ok? ==> SkillsOf(SkillsValue(ParseKvText(text))) == Ok(r.value.skills)
  {
    var data := ParseKvText(text);
    var raw := SkillsValue(data);
    SkillsValueFails(text);
    match SkillsOf(raw)
    case Err(e) => Err(e)
    case Ok(skills) =>
      Ok(ResumeJson(
        User(NormalizeStr(Get(data, "name")), NormalizeStr(Get(data, "email")),
             NormalizeStr(Get(data, "mobile")), NormalizeStr(Get(data, "linkedin"))),
        Profile(NormalizeStr(Get(data, "headline")), NormalizeStr(Get(data, "location")),
                SafeInt(Get(data, "experience_years"), 0, floatPath), ""),
        skills,
        [Employment(NormalizeStr(Get(data, "employment_1_title")),
                    NormalizeStr(Get(data, "employment_1_company")),
                    NormalizeStr(Get(data, "employment_1_description")))],
        [Education(NormalizeStr(Get(data, "education_1_degree")),
                   NormalizeStr(Get(data, "education_1_institution")))]))
  }

  /** The skills of a parsed text fail exactly when its stored `skills`
      value is a null marker. */
  lemma SkillsValueFails(text: string)
    ensures var data := ParseKvText(text);
      SkillsOf(SkillsValue(data)).Err? <==> "skills" in data && IsNullMarker(data["skills"])
  {
    var raw := SkillsValue(ParseKvText(text));
    assert Strip(raw) == raw by {
      if raw == [] {
        StripEmptyIff(raw);
      } else {
        StripStripped(raw);
      }
    }
  }

  /** A `skills` line that lists clean names separated by a comma and
      whitespace gives exactly those names in the parsed resume. */
  lemma ParseKvToJsonSkills(text: string, floatPath: string -> Option<int>, skills: seq<string>, pad: string)
    requires forall i :: 0 <= i < |skills| ==> skills[i] != [] && IsStripped(skills[i]) && ',' !in skills[i]
    requires AllSpace(pad)
    requires !IsNullMarker(Join(skills, [','] + pad))
    requires Get(ParseKvText(text), "skills") == Some(Join(skills, [','] + pad))
    ensures ParseKvToJson(text, floatPath).Ok?
    ensures ParseKvToJson(text, floatPath).value.skills == skills
  {
    SkillsValueRoundTrip(ParseKvText(text), skills, pad);
  }

  /** The same on the dict: a stored `skills` value of joined clean names
      reads back as those names. */
  lemma SkillsValueRoundTrip(data: map<string, string>, skills: seq<string>, pad: string)
    requires forall i :: 0 <= i < |skills| ==> skills[i] != [] && IsStripped(skills[i]) && ',' !in skills[i]
    requires AllSpace(pad)
    requires !IsNullMarker(Join(skills, [','] + pad))
    requires Get(data, "skills") == Some(Join(skills, [','] + pad))
    ensures SkillsOf(SkillsValue(data)) == Ok(skills)
  {
    var j := Join(skills, [','] + pad);
    SkillsValueIs(data, j);
    SkillsOfJoin(skills, pad);
  }

  /** A non-empty stored `skills` value is the value used. */
  lemma SkillsValueIs(data: map<string, string>, v: string)
    requires Get(data, "skills") == Some(v)
    ensures SkillsValue(data) == v
  {
    assert "skills" in data && data["skills"] == v;
  }

  /** SkillsRoundTrip without outer padding. */
  lemma SkillsOfJoin(skills: seq<string>, pad: string)
    requires forall i :: 0 <= i < |skills| ==> skills[i] != [] && IsStripped(skills[i]) && ',' !in skills[i]
    requires AllSpace(pad)
    requires !IsNullMarker(Join(skills, [','] + pad))
    ensures SkillsOf(Join(skills, [','] + pad)) == Ok(skills)
  {
    var j := Join(skills, [','] + pad);
    if skills == [] {
      assert j == [];
      SkillsOfBlank(j);
    } else {
      assert ',' !in pad by {
        assert !IsSpace(',');
      }
      JoinStripped(skills, [','] + pad);
      SplitJoinPadded(skills, ',', pad);
      assert Strip(j) == j by {
        StripStripped(j);
      }
      SkillsOfStripped(j);
    }
  }

  // ---------------------------------------------------------------------
  // safe_json_parse: fences and the {...} span
  // ---------------------------------------------------------------------

  /** The curly braces of `s`, in order. */
  function Braces(s: string): (b: string)
    ensures |b| <= |s|
    decreases |s|
  {
    if s == [] then []
    else (if s[0] == '{' || s[0] == '}' then [s[0]] else []) + Braces(s[1..])
  }

  lemma {:induction false} BracesAppend(a: string, b: string)
    ensures Braces(a + b) == Braces(a) + Braces(b)
    decreases |a|
  {
    if a != [] {
      assert (a + b)[1..] == a[1..] + b;
      BracesAppend(a[1..], b);
    } else {
      assert a + b == b;
    }
  }

  lemma {:induction false} BracesOfPlain(s: string)
    requires '{' !in s && '}' !in s
    ensures Braces(s) == []
    decreases |s|
  {
    if s != [] {
      BracesOfPlain(s[1..]);
    }
  }

  /** `re.sub(r"```json|```", "", text)`: scanning left to right, "```json"
      is removed in preference to a bare "```". */
  function RemoveFences(s: string): (r: string)
    ensures |r| <= |s|
    decreases |s|
  {
    if |s| >= 7 && s[..7] == "```json" then RemoveFences(s[7..])
    else if |s| >= 3 && s[..3] == "```" then RemoveFences(s[3..])
    else if s == [] then []
    else [s[0]] + RemoveFences(s[1..])
  }

  /** Removing fences never removes or adds a brace. */
  lemma {:induction false} RemoveFencesKeepsBraces(s: string)
    ensures Braces(RemoveFences(s)) == Braces(s)
    decreases |s|
  {
    if |s| >= 7 && s[..7] == "```json" {
      RemoveFencesKeepsBraces(s[7..]);
      BracesDrop(s, 7);
    } else if |s| >= 3 && s[..3] == "```" {
      RemoveFencesKeepsBraces(s[3..]);
      BracesDrop(s, 3);
    } else if s != [] {
      RemoveFencesKeepsBraces(s[1..]);
      BracesCons(s[0], RemoveFences(s[1..]));
    }
  }

  /** A brace-free prefix contributes no braces. */
  lemma BracesDrop(s: string, n: nat)
    requires n <= |s| && '{' !in s[..n] && '}' !in s[..n]
    ensures Braces(s) == Braces(s[n..])
  {
    BracesAppend(s[..n], s[n..]);
    BracesOfPlain(s[..n]);
    assert s == s[..n] + s[n..];
  }

  /** The braces of a string that starts with `c`. */
  lemma BracesCons(c: char, t: string)
    ensures Braces([c] + t) == (if c == '{' || c == '}' then [c] else []) + Braces(t)
  {
    assert ([c] + t)[1..] == t;
  }

  /** A character other than a backtick is kept and the scan moves on. */
  lemma RemoveFencesCons(s: string)
    requires s != [] && s[0] != '`'
    ensures RemoveFences(s) == [s[0]] + RemoveFences(s[1..])
  {
    assert |s| >= 3 ==> s[..3][0] == s[0];
    assert |s| >= 7 ==> s[..7][0] == s[0];
  }

  /** Text without backticks passes through untouched. */
  lemma {:induction false} RemoveFencesPlain(body: string, tail: string)
    requires '`' !in body
    ensures RemoveFences(body + tail) == body + RemoveFences(tail)
    decreases |body|
  {
    if body != [] {
      var s := body + tail;
      assert s[0] == body[0] && s[1..] == body[1..] + tail;
      RemoveFencesCons(s);
      RemoveFencesPlain(body[1..], tail);
      assert body == [body[0]] + body[1..];
    } else {
      assert body + tail == tail;
    }
  }

  /** A fenced block reads back as its body. */
  lemma FencedRoundTrip(body: string)
    requires '`' !in body
    ensures RemoveFences("```json" + body + "```") == body
  {
    var s := "```json" + body + "```";
    assert s[..7] == "```json" && s[7..] == body + "```";
    RemoveFencesPlain(body, "```");
    assert "```"[..3] == "```" && "```"[3..] == [];
  }

  /** `t` has a '{' somewhere before a '}': what `\{[\s\S]*\}` needs. */
  predicate HasObject(t: string) {
    exists i, j :: 0 <= i < j < |t| && t[i] == '{' && t[j] == '}'
  }

  /** Position of the last `c` in `s`, or -1. */
  function LastIndexOf(s: string, c: char): (k: int)
    ensures -1 <= k < |s|
    ensures k >= 0 ==> s[k] == c
    ensures forall m :: k < m < |s| ==> s[m] != c
    decreases |s|
  {
    if s == [] then -1
    else if s[|s| - 1] == c then |s| - 1
    else LastIndexOf(s[..|s| - 1], c)
  }

  datatype JsonError = NoJsonObject

  /** `re.search(r"\{[\s\S]*\}", t)`: the span from the first '{' to the
      last '}' after it, if there is one. */
  function ExtractObject(t: string): (r: Result<string, JsonError>)
    ensures r.Ok? <==> HasObject(t)
    ensures r.Ok? ==> |r.value| >= 2 && r.value[0] == '{' && r.value[|r.value| - 1] == '}'
    ensures r.Ok? ==> exists i {:trigger t[..i]} :: 0 <= i && i + |r.value| <= |t|
                        && t[i..i + |r.value|] == r.value && '{' !in t[..i] && '}' !in t[i + |r.value|..]
  {
    var first := IndexOf(t, '{');
    var last := LastIndexOf(t, '}');
    assert forall i :: 0 <= i < first ==> t[i] != '{' by {
      forall i | 0 <= i < first ensures t[i] != '{' { assert t[i] == t[..first][i]; }
    }
    if first < last then
      assert t[first..last + 1][0] == '{';
      Ok(t[first..last + 1])
    else
      Err(NoJsonObject)
  }

  /** The part of `safe_json_parse` before `json.loads`: remove the fences,
      strip, and cut out the object span. */
  function JsonCandidate(text: string): (r: Result<string, JsonError>)
    ensures r.Ok? ==> |r.value| >= 2 && r.value[0] == '{' && r.value[|r.value| - 1] == '}'
  {
    ExtractObject(Strip(RemoveFences(text)))
  }

  lemma {:induction false} HasObjectCons(t: string)
    requires t != []
    ensures HasObject(t) <==> (t[0] == '{' && '}' in t[1..]) || HasObject(t[1..])
  {
    if HasObject(t) {
      var i, j :| 0 <= i < j < |t| && t[i] == '{' && t[j] == '}';
      if i == 0 {
        assert t[1..][j - 1] == '}';
      } else {
        assert t[1..][i - 1] == '{' && t[1..][j - 1] == '}';
      }
    }
    if t[0] == '{' && '}' in t[1..] {
      var j :| 0 <= j < |t[1..]| && t[1..][j] == '}';
      assert t[j + 1] == '}';
    }
    if HasObject(t[1..]) {
      var i, j :| 0 <= i < j < |t[1..]| && t[1..][i] == '{' && t[1..][j] == '}';
      assert t[i + 1] == '{' && t[j + 1] == '}';
    }
  }

  lemma {:induction false} BracesKeep(s: string, c: char)
    requires c == '{' || c == '}'
    ensures c in s <==> c in Braces(s)
    decreases |s|
  {
    if s != [] {
      BracesKeep(s[1..], c);
      assert s == [s[0]] + s[1..];
    }
  }

  /** Whether an object span exists depends only on the braces. */
  lemma {:induction false} HasObjectOfBraces(t: string)
    ensures HasObject(t) <==> HasObject(Braces(t))
    decreases |t|
  {
    if t != [] {
      var rest := Braces(t[1..]);
      HasObjectOfBraces(t[1..]);
      HasObjectCons(t);
      BracesKeep(t[1..], '}');
      if t[0] == '{' || t[0] == '}' {
        var b := Braces(t);
        assert b == [t[0]] + rest;
        HasObjectCons(b);
        assert b[1..] == rest;
      } else {
        assert Braces(t) == rest;
      }
    } else {
      assert Braces(t) == [];
    }
  }

  lemma {:induction false} BracesOfSpace(s: string)
    requires AllSpace(s)
    ensures Braces(s) == []
    decreases |s|
  {
    if s != [] {
      BracesOfSpace(s[1..]);
    }
  }

  lemma BracesOfStrip(s: string)
    ensures Braces(Strip(s)) == Braces(s)
  {
    var r := Strip(s);
    var i := LeadingSpace(s);
    assert s == s[..i] + r + s[i + |r|..];
    BracesPadded(s[..i], r, s[i + |r|..]);
  }

  lemma BracesPadded(a: string, m: string, b: string)
    requires AllSpace(a) && AllSpace(b)
    ensures Braces(a + m + b) == Braces(m)
  {
    BracesAppend(a + m, b);
    BracesAppend(a, m);
    BracesOfSpace(a);
    BracesOfSpace(b);
  }

  /** "No JSON object found" is raised exactly when the raw text has no '{'
      before a '}': fences and surrounding whitespace never matter. */
  lemma NoObjectDecidedByRawText(text: string)
    ensures JsonCandidate(text).Err? <==> !HasObject(text)
  {
    var t := Strip(RemoveFences(text));
    RemoveFencesKeepsBraces(text);
    BracesOfStrip(RemoveFences(text));
    HasObjectOfBraces(t);
    HasObjectOfBraces(text);
  }
}

=== FILE: outcomes.dfy ===
/** Failure-carrying values shared by every module of the model. */
module Outcomes {

  /** Python's `Optional[T]`: `None` or a present value. */
  datatype Option<+T> = None | Some(value: T)

  /** A value, or the error a Python function would have raised instead. */
  datatype Result<+T, +E> = Ok(value: T) | Err(error: E)

  /** Python's `d.get(k)`: the value stored under `k`, or `None`. */
  function Get<K, V>(m: map<K, V>, k: K): (r: Option<V>)
    ensures r.Some? <==> k in m
    ensures r.Some? ==> r.value == m[k]
  {
    if k in m then Some(m[k]) else None
  }
}

=== FILE: profile_text.dfy ===
/** The résumé summary both question generators put into their prompt:
    the skills, the experience and the education line. */
module ProfileText {
  import opened Outcomes
  import opened Text

  /** One experience or education dict: a missing key is absent from the
      map, a key holding `None` maps to `None`. */
  type Entry = map<string, Option<string>>

  /** The parts of `clean_data` the generators read; a missing list is the
      empty list (`clean_data.get(key, [])`). */
  datatype ResumeInfo = ResumeInfo(skills: seq<string>, experience: seq<Entry>, education: seq<Entry>)

  /** `f"{e.get(key, 'NA')}"`: "NA" for a missing key, "None" for `None`. */
  function Field(e: Entry, key: string): (s: string)
    ensures key !in e ==> s == "NA"
    ensures key in e && e[key].None? ==> s == "None"
    ensures key in e && e[key].Some? ==> s == e[key].value
  {
    if key !in e then "NA"
    else match e[key]
      case None => "None"
      case Some(v) => v
  }

  /** `text or "NA"`. */
  function OrNA(text: string): (s: string)
    ensures s != []
    ensures text != [] ==> s == text
  {
    if text == [] then "NA" else text
  }

  /** `", ".join(skills) or "NA"`: the fallback "NA" appears exactly when
      there is no skill text at all (no skills, or a single empty one) or
      the only skill is itself "NA". */
  function SkillsText(skills: seq<string>): (s: string)
    ensures s != []
    ensures s == "NA" <==> skills == [] || skills == [[]] || skills == ["NA"]
  {
    var j := Join(skills, ", ");
    JoinEmptyIff(skills, ", ");
    assert |skills| > 1 ==> j != "NA" by {
      if |skills| > 1 {
        assert j == skills[0] + ", " + Join(skills[1..], ", ");
        assert |j| >= 2 && j[|skills[0]|] == ',';
      }
    }
    OrNA(j)
  }

  /** One line of the experience part: "title at company". */
  function ExperienceItem(e: Entry): (s: string)
  {
    Field(e, "title") + " at " + Field(e, "company")
  }

  /** One line of the education part: "degree from institution". */
  function EducationItem(e: Entry): (s: string)
  {
    Field(e, "degree") + " from " + Field(e, "institution")
  }

  function ExperienceItems(es: seq<Entry>): (items: seq<string>)
  {
    seq(|es|, i requires 0 <= i < |es| => ExperienceItem(es[i]))
  }

  function EducationItems(es: seq<Entry>): (items: seq<string>)
  {
    seq(|es|, i requires 0 <= i < |es| => EducationItem(es[i]))
  }

  /** `"; ".join(f"{title} at {company}" ...) or "NA"`: "NA" exactly when
      there is no experience, since every item has the form "... at ...". */
  function ExperienceText(es: seq<Entry>): (s: string)
    ensures s != []
    ensures s == "NA" <==> es == []
  {
    var items := ExperienceItems(es);
    assert es != [] ==> |Join(items, "; ")| >= 4 by {
      if es != [] {
        assert |items[0]| >= 4;
      }
    }
    OrNA(Join(items, "; "))
  }

  /** `"; ".join(f"{degree} from {institution}" ...) or "NA"`: "NA" exactly
      when there is no education. */
  function EducationText(es: seq<Entry>): (s: string)
    ensures s != []
    ensures s == "NA" <==> es == []
  {
    var items := EducationItems(es);
    assert es != [] ==> |Join(items, "; ")| >= 6 by {
      if es != [] {
        assert |items[0]| >= 6;
      }
    }
    OrNA(Join(items, "; "))
  }

  /** A dict value that survives the round trip through the summary line:
      a string that is non-empty, carries no surrounding whitespace and no
      ';' (a missing key or `None` is always fine). */
  predicate CleanValue(e: Entry, key: string) {
    key in e && e[key].Some? ==>
      var v := e[key].value;
      v != [] && IsStripped(v) && ';' !in v
  }

  /** Two clean fields around a separator word give a clean item. */
  lemma ItemClean(e: Entry, k1: string, mid: string, k2: string)
    requires CleanValue(e, k1) && CleanValue(e, k2)
    requires ';' !in mid
    ensures var s := Field(e, k1) + mid + Field(e, k2);
      s != [] && IsStripped(s) && ';' !in s
  {
    var a, b := Field(e, k1), Field(e, k2);
    var s := a + mid + b;
    assert a != [] && IsStripped(a) && ';' !in a;
    assert b != [] && IsStripped(b) && ';' !in b;
    assert s[0] == a[0] && s[|s| - 1] == b[|b| - 1];
  }

  /** Clean skill names can be read back from the skills part: splitting it
      on ',' and stripping each piece gives the list. */
  lemma SkillsTextRoundTrip(skills: seq<string>)
    requires |skills| >= 1
    requires forall i :: 0 <= i < |skills| ==> skills[i] != [] && IsStripped(skills[i]) && ',' !in skills[i]
    ensures StrippedNonBlank(Split(SkillsText(skills), ',')) == skills
  {
    JoinStripped(skills, ", ");
    assert ", " == [','] + " ";
    SplitJoinPadded(skills, ',', " ");
  }

  /** With clean titles and companies, splitting the experience part on ';'
      and stripping each piece gives one "title at company" per entry. */
  lemma ExperienceTextRoundTrip(es: seq<Entry>)
    requires es != []
    requires forall i :: 0 <= i < |es| ==> CleanValue(es[i], "title") && CleanValue(es[i], "company")
    ensures StrippedNonBlank(Split(ExperienceText(es), ';')) == ExperienceItems(es)
  {
    var items := ExperienceItems(es);
    forall i | 0 <= i < |items|
      ensures items[i] != [] && IsStripped(items[i]) && ';' !in items[i]
    {
      ItemClean(es[i], "title", " at ", "company");
    }
    JoinStripped(items, "; ");
    assert "; " == [';'] + " ";
    SplitJoinPadded(items, ';', " ");
  }

  /** With clean degrees and institutions, splitting the education part on
      ';' and stripping each piece gives one "degree from institution" per
      entry. */
  lemma EducationTextRoundTrip(es: seq<Entry>)
    requires es != []
    requires forall i :: 0 <= i < |es| ==> CleanValue(es[i], "degree") && CleanValue(es[i], "institution")
    ensures StrippedNonBlank(Split(EducationText(es), ';')) == EducationItems(es)
  {
    var items := EducationItems(es);
    forall i | 0 <= i < |items|
      ensures items[i] != [] && IsStripped(items[i]) && ';' !in items[i]
    {
      ItemClean(es[i], "degree", " from ", "institution");
    }
    JoinStripped(items, "; ");
    assert "; " == [';'] + " ";
    SplitJoinPadded(items, ';', " ");
  }

  /** A single experience renders as its title and company, each defaulting
      to "NA". */
  lemma SingleExperience(e: Entry)
    ensures ExperienceText([e]) == Field(e, "title") + " at " + Field(e, "company")
  {
    assert ExperienceItems([e]) == [ExperienceItem(e)];
  }
}

=== FILE: question_generator.dfy ===
/** `question_generator.generate_interview_questions`: the chat-completion
    variant used by `/start`. The model call is a parameter; what the model
    sees is recorded as the `Prompt` it is built from. */
module QuestionGenerator {
  import opened Outcomes
  import opened Text
  import opened ProfileText

  /** What the prompt is made of: the three summary lines and the number
      of questions asked for. */
  datatype Prompt = Prompt(skills: string, experience: string, education: string, count: int)

  /** The chat model: the message content, or `None` when the call raises. */
  type ChatModel = Prompt -> Option<string>

  function PromptFor(info: ResumeInfo, count: int): (p: Prompt)
    ensures p.skills != [] && p.experience != [] && p.education != []
    ensures p.count == count
  {
    Prompt(SkillsText(info.skills), ExperienceText(info.experience), EducationText(info.education), count)
  }

  /** What the filter keeps of one line: the stripped line when it is
      non-blank and asks something, otherwise nothing. */
  function AskedLine(line: string): (q: seq<string>)
    ensures |q| <= 1
    ensures forall i :: 0 <= i < |q| ==> q[i] != [] && IsStripped(q[i]) && '?' in q[i]
  {
    var s := Strip(line);
    if s != [] && '?' in line then
      StripKeeps(line, '?');
      [s]
    else []
  }

  /** `[line.strip() for line in lines if line.strip() and "?" in line]`. */
  function QuestionLines(lines: seq<string>): (qs: seq<string>)
    ensures |qs| <= |lines|
    decreases |lines|
  {
    if lines == [] then [] else AskedLine(lines[0]) + QuestionLines(lines[1..])
  }

  /** Every kept line is a non-blank stripped line that asks something. */
  lemma {:induction false} QuestionLinesClean(lines: seq<string>)
    ensures forall i :: 0 <= i < |QuestionLines(lines)| ==>
      QuestionLines(lines)[i] != [] && IsStripped(QuestionLines(lines)[i]) && '?' in QuestionLines(lines)[i]
    decreases |lines|
  {
    if lines != [] {
      QuestionLinesClean(lines[1..]);
    }
  }

  /** Lines that all ask something are all kept, stripped. */
  lemma {:induction false} QuestionLinesAllAsk(lines: seq<string>)
    requires forall i :: 0 <= i < |lines| ==> '?' in lines[i]
    ensures QuestionLines(lines) == StrippedNonBlank(lines)
    decreases |lines|
  {
    if lines != [] {
      QuestionLinesAllAsk(lines[1..]);
    }
  }

  /** The filter keeps the original line order: it distributes over `+`. */
  lemma {:induction false} QuestionLinesAppend(a: seq<string>, b: seq<string>)
    ensures QuestionLines(a + b) == QuestionLines(a) + QuestionLines(b)
    decreases |a|
  {
    if a != [] {
      assert (a + b)[0] == a[0];
      assert (a + b)[1..] == a[1..] + b;
      QuestionLinesAppend(a[1..], b);
      calc {
        QuestionLines(a + b);
        AskedLine(a[0]) + QuestionLines(a[1..] + b);
        AskedLine(a[0]) + (QuestionLines(a[1..]) + QuestionLines(b));
        (AskedLine(a[0]) + QuestionLines(a[1..])) + QuestionLines(b);
      }
    } else {
      assert a + b == b;
    }
  }

  /** Lines none of which asks anything yield nothing, so the fallback runs. */
  lemma {:induction false} QuestionLinesNoneAsk(lines: seq<string>)
    requires forall i :: 0 <= i < |lines| ==> '?' !in lines[i]
    ensures QuestionLines(lines) == []
    decreases |lines|
  {
    if lines != [] {
      QuestionLinesNoneAsk(lines[1..]);
    }
  }

  /** The response parse: split on "\n", keep the stripped lines that ask a
      question, and fall back to every non-blank line when none does. */
  function ParseQuestions(raw: string): (qs: seq<string>)
    ensures forall i :: 0 <= i < |qs| ==> qs[i] != [] && IsStripped(qs[i])
    ensures QuestionLines(Split(raw, '\n')) != [] ==> forall i :: 0 <= i < |qs| ==> '?' in qs[i]
    ensures QuestionLines(Split(raw, '\n')) != [] ==> qs == QuestionLines(Split(raw, '\n'))
    ensures QuestionLines(Split(raw, '\n')) == [] ==> qs == StrippedNonBlank(Split(raw, '\n'))
  {
    var lines := Split(raw, '\n');
    var asked := QuestionLines(lines);
    QuestionLinesClean(lines);
    if asked != [] then asked else StrippedNonBlank(lines)
  }

  /** A reply in which some line asks something yields exactly the asking
      lines, stripped, in their original order: lines that ask nothing (an
      introduction, say) are dropped and no others. */
  lemma ParseQuestionsOfLines(lines: seq<string>)
    requires |lines| >= 1
    requires forall i :: 0 <= i < |lines| ==> '\n' !in lines[i]
    requires exists i :: 0 <= i < |lines| && '?' in lines[i] && Strip(lines[i]) != []
    ensures ParseQuestions(Join(lines, "\n")) == QuestionLines(lines)
  {
    var i :| 0 <= i < |lines| && '?' in lines[i] && Strip(lines[i]) != [];
    QuestionLinesAsked(lines, i);
    SplitJoin(lines, '\n');
  }

  /** An asking, non-blank line makes the filter non-empty. */
  lemma {:induction false} QuestionLinesAsked(lines: seq<string>, i: nat)
    requires i < |lines| && '?' in lines[i] && Strip(lines[i]) != []
    ensures QuestionLines(lines) != []
    decreases |lines|
  {
    if i > 0 {
      QuestionLinesAsked(lines[1..], i - 1);
    }
  }

  /** An introduction line before the questions is dropped. */
  lemma IntroLineDropped(intro: string, qs: seq<string>)
    requires '?' !in intro && '\n' !in intro
    requires |qs| >= 1
    requires forall i :: 0 <= i < |qs| ==> qs[i] != [] && IsStripped(qs[i]) && '?' in qs[i] && '\n' !in qs[i]
    ensures ParseQuestions(intro + "\n" + Join(qs, "\n")) == qs
  {
    var lines := [intro] + qs;
    assert Join(lines, "\n") == intro + "\n" + Join(qs, "\n") by {
      assert lines[1..] == qs;
    }
    forall i | 0 <= i < |lines| ensures '\n' !in lines[i] {
      if i > 0 { assert lines[i] == qs[i - 1]; }
    }
    assert lines[1] == qs[0];
    StripStripped(qs[0]);
    ParseQuestionsOfLines(lines);
    QuestionLinesAppend([intro], qs);
    assert AskedLine(intro) == [];
    assert QuestionLines([intro]) == AskedLine(intro) + QuestionLines([]);
    QuestionLinesAllAsk(qs);
    StrippedNonBlankKeepsClean(qs);
  }

  /** Clean one-line questions written one per line read back unchanged. */
  lemma ParseQuestionsRoundTrip(qs: seq<string>)
    requires |qs| >= 1
    requires forall i :: 0 <= i < |qs| ==> qs[i] != [] && IsStripped(qs[i]) && '?' in qs[i] && '\n' !in qs[i]
    ensures ParseQuestions(Join(qs, "\n")) == qs
  {
    SplitJoin(qs, '\n');
    QuestionLinesAllAsk(qs);
    StrippedNonBlankKeepsClean(qs);
  }

  /** A reply with no '?' at all (a numbered list of statements, say) keeps
      every non-blank line. */
  lemma ParseQuestionsFallback(raw: string)
    requires '?' !in raw
    ensures ParseQuestions(raw) == StrippedNonBlank(Split(raw, '\n'))
  {
    var lines := Split(raw, '\n');
    JoinSplit(raw, '\n');
    forall i | 0 <= i < |lines| ensures '?' !in lines[i] {
      JoinContains(lines, "\n", i);
    }
    QuestionLinesNoneAsk(lines);
  }

  /** Every part's characters occur in the join. */
  lemma {:induction false} JoinContains(parts: seq<string>, sep: string, i: nat)
    requires i < |parts|
    ensures forall c :: c in parts[i] ==> c in Join(parts, sep)
    decreases |parts|
  {
    if |parts| > 1 {
      var tail := Join(parts[1..], sep);
      assert Join(parts, sep) == parts[0] + sep + tail;
      if i > 0 {
        JoinContains(parts[1..], sep, i - 1);
      }
    }
  }

  /** Python's `xs[:n]`: a negative `n` counts from the end. */
  function SliceTo<T>(xs: seq<T>, n: int): (r: seq<T>)
    ensures |r| <= |xs| && r == xs[..|r|]
    ensures 0 <= n ==> |r| == if n < |xs| then n else |xs|
    ensures n < 0 ==> |r| == if |xs| + n > 0 then |xs| + n else 0
  {
    if 0 <= n then (if n < |xs| then xs[..n] else xs)
    else if |xs| + n > 0 then xs[..|xs| + n]
    else []
  }

  /** `generate_interview_questions(clean_data, num_questions=count)`:
      nothing without an API token or when the model call raises, otherwise
      the parsed questions cut to `count`. */
  function GenerateInterviewQuestions(hasToken: bool, info: ResumeInfo, count: int, chat: ChatModel): (qs: seq<string>)
    ensures !hasToken || chat(PromptFor(info, count)).None? ==> qs == []
    ensures 0 <= count ==> |qs| <= count
    ensures forall i :: 0 <= i < |qs| ==> qs[i] != [] && IsStripped(qs[i])
    ensures hasToken && chat(PromptFor(info, count)).Some? ==>
      var parsed := ParseQuestions(Strip(chat(PromptFor(info, count)).value));
      && |qs| <= |parsed| && qs == parsed[..|qs|]
      && (0 <= count ==> |qs| == if count < |parsed| then count else |parsed|)
  {
    if !hasToken then []
    else match chat(PromptFor(info, count))
      case None => []
      case Some(content) => SliceTo(ParseQuestions(Strip(content)), count)
  }

  /** A reply of clean questions, one per line, comes back cut to its first
      `count` questions (all of them when there are no more than `count`). */
  lemma GenerateRoundTrip(info: ResumeInfo, count: int, chat: ChatModel, qs: seq<string>)
    requires |qs| >= 1
    requires forall i :: 0 <= i < |qs| ==> qs[i] != [] && IsStripped(qs[i]) && '?' in qs[i] && '\n' !in qs[i]
    requires chat(PromptFor(info, count)) == Some(Join(qs, "\n"))
    ensures GenerateInterviewQuestions(true, info, count, chat) == SliceTo(qs, count)
    ensures 0 <= count ==> GenerateInterviewQuestions(true, info, count, chat) == qs[..if count < |qs| then count else |qs|]
  {
    JoinStripped(qs, "\n");
    StripStripped(Join(qs, "\n"));
    ParseQuestionsRoundTrip(qs);
  }
}

=== FILE: questions_genrator.dfy ===
/** `questions_genrator.generate_interview_questions`: the variant that
    posts to the router endpoint directly. Unlike the chat variant it does
    not check for a token, lets request failures propagate, keeps every
    non-blank line without looking for '?', and caps the list at 10 whatever
    was asked for. */
module QuestionsGenrator {
  import opened Outcomes
  import opened Text
  import opened ProfileText
  import QuestionGenerator

  /** A failed request: an error status (`raise_for_status`) or a reply
      without the expected fields. */
  datatype RequestError = RequestError(reason: string)

  /** The HTTP round trip: the message content or the failure. */
  type Endpoint = QuestionGenerator.Prompt -> Result<string, RequestError>

  /** The hard cap on the number of questions returned. */
  const MaxQuestions: nat := 10

  /** `[line.strip() for line in raw.split("\n") if line.strip()]`. */
  function ParseLines(raw: string): (qs: seq<string>)
    ensures forall i :: 0 <= i < |qs| ==> qs[i] != [] && IsStripped(qs[i])
  {
    StrippedNonBlank(Split(raw, '\n'))
  }

  /** Clean lines written one per line read back unchanged. */
  lemma ParseLinesRoundTrip(qs: seq<string>)
    requires |qs| >= 1
    requires forall i :: 0 <= i < |qs| ==> qs[i] != [] && IsStripped(qs[i]) && '\n' !in qs[i]
    ensures ParseLines(Join(qs, "\n")) == qs
  {
    SplitJoin(qs, '\n');
    StrippedNonBlankKeepsClean(qs);
  }

  /** Any reply, blank and indented lines included, gives its non-blank
      lines stripped, in order. */
  lemma ParseLinesOfLines(lines: seq<string>)
    requires |lines| >= 1
    requires forall i :: 0 <= i < |lines| ==> '\n' !in lines[i]
    ensures ParseLines(Join(lines, "\n")) == StrippedNonBlank(lines)
  {
    SplitJoin(lines, '\n');
  }

  /** `generate_interview_questions(clean_data, num_questions=count)`. */
  function GenerateInterviewQuestions(info: ResumeInfo, count: int, post: Endpoint): (r: Result<seq<string>, RequestError>)
    ensures post(QuestionGenerator.PromptFor(info, count)).Err? <==> r.Err?
    ensures r.Err? ==> r.error == post(QuestionGenerator.PromptFor(info, count)).error
    ensures r.Ok? ==> |r.value| <= MaxQuestions
    ensures r.Ok? ==> forall i :: 0 <= i < |r.value| ==> r.value[i] != [] && IsStripped(r.value[i])
    ensures r.Ok? ==>
      var parsed := ParseLines(Strip(post(QuestionGenerator.PromptFor(info, count)).value));
      && |r.value| == (if |parsed| < MaxQuestions then |parsed| else MaxQuestions)
      && r.value == parsed[..|r.value|]
  {
    match post(QuestionGenerator.PromptFor(info, count))
    case Err(e) => Err(e)
    case Ok(content) =>
      var qs := ParseLines(Strip(content));
      Ok(if |qs| <= MaxQuestions then qs else qs[..MaxQuestions])
  }

  /** A reply of clean lines comes back in order, cut to the first ten. */
  lemma GenerateRoundTrip(info: ResumeInfo, count: int, post: Endpoint, qs: seq<string>)
    requires |qs| >= 1
    requires forall i :: 0 <= i < |qs| ==> qs[i] != [] && IsStripped(qs[i]) && '\n' !in qs[i]
    requires post(QuestionGenerator.PromptFor(info, count)) == Ok(Join(qs, "\n"))
    ensures GenerateInterviewQuestions(info, count, post)
            == Ok(if |qs| <= MaxQuestions then qs else qs[..MaxQuestions])
  {
    JoinStripped(qs, "\n");
    StripStripped(Join(qs, "\n"));
    ParseLinesRoundTrip(qs);
  }

  /** The requested count only reaches the prompt: for the same reply, any
      two counts give the same questions. */
  lemma CountIgnored(info: ResumeInfo, m: int, n: int, post: Endpoint)
    requires post(QuestionGenerator.PromptFor(info, m)) == post(QuestionGenerator.PromptFor(info, n))
    ensures GenerateInterviewQuestions(info, m, post) == GenerateInterviewQuestions(info, n, post)
  {
  }
}

=== FILE: session_manager.dfy ===
/** The in-memory interview session store (`InterviewSession` and
    `SessionManager`). A store maps session ids to sessions; every operation
    is a pure function from the old store to the new one. */
module SessionManager {
  import opened Outcomes

  /** One grading result: the evaluator's `feedback`, `rating` and
      `is_satisfactory` fields. */
  datatype Feedback = Feedback(text: string, rating: string, satisfactory: bool)

  /** `InterviewSession` without its informational `created_at` timestamp.
      `feedback` is the `feedbacks` dict and `audio` is `pre_generated_audio`;
      both are keyed by question position. */
  datatype Session = Session(
    id: string,
    questions: seq<string>,
    index: nat,
    answers: seq<string>,
    feedback: map<int, Feedback>,
    completed: bool,
    audio: map<int, string>)

  /** `SessionManager.sessions`. */
  type Store = map<string, Session>

  /** The state `InterviewSession.__init__` builds. */
  function NewSession(id: string, questions: seq<string>): Session
  {
    Session(id, questions, 0, [], map[], false, map[])
  }

  // ---------------------------------------------------------------------
  // Invariants
  // ---------------------------------------------------------------------

  /** The progress invariant: one answer per advancement, the pointer stays
      within the question list, and the session is completed exactly when
      the pointer has reached the end. */
  predicate Valid(s: Session) {
    && |s.answers| == s.index
    && s.index <= |s.questions|
    && (s.completed <==> s.index == |s.questions|)
  }

  /** Feedback and cached audio are keyed by positions of the question list. */
  predicate KeysInRange(s: Session) {
    && (forall i :: i in s.feedback ==> 0 <= i < |s.questions|)
    && (forall i :: i in s.audio ==> 0 <= i < |s.questions|)
  }

  predicate StoreValid(st: Store) {
    forall id :: id in st ==> st[id].id == id && Valid(st[id]) && KeysInRange(st[id])
  }

  /** `t` agrees with `s` on everything the candidate-facing path owns: id,
      questions, pointer, answers and completion. */
  predicate SameProgress(s: Session, t: Session) {
    && s.id == t.id
    && s.questions == t.questions
    && s.index == t.index
    && s.answers == t.answers
    && s.completed == t.completed
  }

  predicate StoreSameProgress(st: Store, st': Store) {
    && st.Keys == st'.Keys
    && forall id :: id in st ==> SameProgress(st[id], st'[id])
  }

  // ---------------------------------------------------------------------
  // Operations
  // ---------------------------------------------------------------------

  /** `create_session`, with the id supplied by the caller. */
  function Create(st: Store, id: string, questions: seq<string>): (st': Store)
    ensures st'.Keys == st.Keys + {id}
    ensures st'[id] == NewSession(id, questions)
    ensures forall other :: other in st && other != id ==> st'[other] == st[other]
  {
    st[id := NewSession(id, questions)]
  }

  /** `get_current_question`: the question at the pointer, or `None` for an
      unknown id or a pointer past the end. */
  function CurrentQuestion(st: Store, id: string): (q: Option<string>)
    ensures q.Some? <==> id in st && st[id].index < |st[id].questions|
    ensures q.Some? ==> q.value == st[id].questions[st[id].index]
  {
    match Get(st, id)
    case None => None
    case Some(s) => if s.index < |s.questions| then Some(s.questions[s.index]) else None
  }

  /** `submit_answer`. Returns whether it succeeded and the new store. The
      optional feedback is stored at the pre-increment position when present. */
  function SubmitAnswer(st: Store, id: string, answer: string, feedback: Option<Feedback>): (r: (bool, Store))
    ensures !r.0 <==> id !in st || st[id].completed
    ensures !r.0 ==> r.1 == st
    ensures r.0 ==> r.1.Keys == st.Keys
    ensures r.0 ==> forall other :: other in st && other != id ==> r.1[other] == st[other]
    ensures r.0 ==> var s, s' := st[id], r.1[id];
      && s'.id == s.id && s'.questions == s.questions && s'.audio == s.audio
      && s'.answers == s.answers + [answer]
      && s'.index == s.index + 1
      && (s'.completed <==> s'.index >= |s.questions|)
      && s'.feedback == (if feedback.Some? then s.feedback[s.index := feedback.value] else s.feedback)
  {
    match Get(st, id)
    case None => (false, st)
    case Some(s) =>
      if s.completed then (false, st)
      else
        var fb := if feedback.Some? then s.feedback[s.index := feedback.value] else s.feedback;
        var next := s.index + 1;
        (true, st[id := s.(answers := s.answers + [answer], feedback := fb,
                           index := next, completed := next >= |s.questions|)])
  }

  /** `add_feedback`: an upsert at `index`; nothing happens for an unknown id. */
  function AddFeedback(st: Store, id: string, index: int, fb: Feedback): (st': Store)
    ensures id !in st ==> st' == st
    ensures StoreSameProgress(st, st')
    ensures forall other :: other in st && other != id ==> st'[other] == st[other]
    ensures id in st ==> st'[id].audio == st[id].audio
    ensures id in st ==> st'[id].feedback.Keys == st[id].feedback.Keys + {index}
    ensures id in st ==> st'[id].feedback[index] == fb
    ensures id in st ==> forall i :: i in st[id].feedback && i != index ==> st'[id].feedback[i] == st[id].feedback[i]
  {
    match Get(st, id)
    case None => st
    case Some(s) => st[id := s.(feedback := s.feedback[index := fb])]
  }

  /** `set_cached_audio`: an upsert at `index`; nothing happens for an unknown id. */
  function SetCachedAudio(st: Store, id: string, index: int, path: string): (st': Store)
    ensures id !in st ==> st' == st
    ensures StoreSameProgress(st, st')
    ensures forall other :: other in st && other != id ==> st'[other] == st[other]
    ensures id in st ==> st'[id].feedback == st[id].feedback
    ensures id in st ==> st'[id].audio.Keys == st[id].audio.Keys + {index}
    ensures id in st ==> st'[id].audio[index] == path
    ensures id in st ==> forall i :: i in st[id].audio && i != index ==> st'[id].audio[i] == st[id].audio[i]
  {
    match Get(st, id)
    case None => st
    case Some(s) => st[id := s.(audio := s.audio[index := path])]
  }

  /** `get_cached_audio`: absent for an unknown id or an index never cached. */
  function GetCachedAudio(st: Store, id: string, index: int): (r: Option<string>)
    ensures r.Some? <==> id in st && index in st[id].audio
    ensures r.Some? ==> r.value == st[id].audio[index]
  {
    match Get(st, id)
    case None => None
    case Some(s) => if index in s.audio then Some(s.audio[index]) else None
  }

  /** `is_finished`: an unknown id counts as finished. */
  function IsFinished(st: Store, id: string): (r: bool)
    ensures r <==> id !in st || st[id].completed
  {
    match Get(st, id)
    case None => true
    case Some(s) => s.completed
  }

  // ---------------------------------------------------------------------
  // The feedback report: values in ascending key order
  // ---------------------------------------------------------------------

  /** Every non-empty finite set of integers has a least element. */
  lemma {:induction false} LeastExists(keys: set<int>)
    requires keys != {}
    ensures exists m :: m in keys && forall k :: k in keys ==> m <= k
    decreases |keys|
  {
    if forall y :: y !in keys {
      assert false;
    }
    var x :| x in keys;
    var rest := keys - {x};
    if rest == {} {
      assert forall k :: k in keys ==> k == x || k in rest;
    } else {
      LeastExists(rest);
      var m :| m in rest && forall k :: k in rest ==> m <= k;
      var least := if x < m then x else m;
      forall k | k in keys
        ensures least <= k
      {
        if k != x { assert k in rest; }
      }
      assert least in keys;
    }
  }

  /** The least element of a non-empty set of integers. */
  function Least(keys: set<int>): (m: int)
    requires keys != {}
    ensures m in keys && forall k :: k in keys ==> m <= k
  {
    LeastExists(keys);
    var m :| m in keys && forall k :: k in keys ==> m <= k;
    m
  }

  /** `r` lists exactly the members of `keys`, in strictly ascending order. */
  predicate AscendingListing(r: seq<int>, keys: set<int>) {
    && |r| == |keys|
    && (forall i :: 0 <= i < |r| ==> r[i] in keys)
    && (forall k :: k in keys ==> k in r)
    && (forall i, j :: 0 <= i < j < |r| ==> r[i] < r[j])
  }

  /** Putting the least key in front of an ascending listing of the others
      gives an ascending listing of all keys. */
  lemma LeastThenRest(keys: set<int>, rest: seq<int>)
    requires keys != {} && AscendingListing(rest, keys - {Least(keys)})
    ensures AscendingListing([Least(keys)] + rest, keys)
  {
    var m := Least(keys);
    assert forall i :: 0 <= i < |rest| ==> m < rest[i];
    assert forall k :: k in keys && k != m ==> k in keys - {m};
  }

  /** Python's `sorted(keys)` for a set of integers. */
  function SortedKeys(keys: set<int>): (r: seq<int>)
    ensures |r| == |keys|
    ensures forall i :: 0 <= i < |r| ==> r[i] in keys
    ensures forall k :: k in keys ==> k in r
    ensures forall i, j :: 0 <= i < j < |r| ==> r[i] < r[j]
    decreases |keys|
  {
    if keys == {} then []
    else
      var rest := SortedKeys(keys - {Least(keys)});
      LeastThenRest(keys, rest);
      [Least(keys)] + rest
  }

  /** How many keys are smaller than `a`: the place `a` takes in an
      ascending listing of `keys`. */
  function Rank(keys: set<int>, a: int): nat {
    |set k | k in keys && k < a|
  }

  /** Dropping the least key lowers the rank of every other key by one. */
  lemma RankAfterLeast(keys: set<int>, a: int)
    requires a in keys && a != Least(keys)
    ensures Rank(keys, a) == 1 + Rank(keys - {Least(keys)}, a)
  {
    var m := Least(keys);
    var below := set k | k in keys - {m} && k < a;
    assert m < a && m !in below;
    assert (set k | k in keys && k < a) == {m} + below;
  }

  /** `sorted` puts every key at its rank. */
  lemma {:induction false} SortedKeysRank(keys: set<int>, a: int)
    requires a in keys
    ensures Rank(keys, a) < |SortedKeys(keys)| && SortedKeys(keys)[Rank(keys, a)] == a
    decreases |keys|
  {
    var m := Least(keys);
    var rest := keys - {m};
    assert SortedKeys(keys) == [m] + SortedKeys(rest);
    if a == m {
      assert (set k | k in keys && k < a) == {};
    } else {
      SortedKeysRank(rest, a);
      RankAfterLeast(keys, a);
    }
  }

  /** The list comprehension in `get_all_feedback`: the entry of index `a`
      sits at the rank of `a` among the recorded indices. */
  function FeedbackReport(fb: map<int, Feedback>): (r: seq<Feedback>)
    ensures |r| == |fb|
    ensures forall a :: a in fb ==> Rank(fb.Keys, a) < |r| && r[Rank(fb.Keys, a)] == fb[a]
  {
    var ks := SortedKeys(fb.Keys);
    assert |ks| == |fb.Keys| == |fb|;
    var r := seq(|ks|, i requires 0 <= i < |ks| => fb[ks[i]]);
    assert forall a :: a in fb ==> Rank(fb.Keys, a) < |r| && r[Rank(fb.Keys, a)] == fb[a] by {
      forall a | a in fb
        ensures Rank(fb.Keys, a) < |r| && r[Rank(fb.Keys, a)] == fb[a]
      {
        SortedKeysRank(fb.Keys, a);
      }
    }
    r
  }

  /** `get_all_feedback`: `None` only for an unknown id. */
  function AllFeedback(st: Store, id: string): (r: Option<seq<Feedback>>)
    ensures r.None? <==> id !in st
    ensures r.Some? ==> |r.value| == |st[id].feedback|
    ensures r.Some? ==> r.value == FeedbackReport(st[id].feedback)
  {
    match Get(st, id)
    case None => None
    case Some(s) => Some(FeedbackReport(s.feedback))
  }

  /** The report lists the entry of a smaller index strictly before that of
      a larger one. */
  lemma ReportOrdered(fb: map<int, Feedback>, a: int, b: int)
    requires a in fb && b in fb && a < b
    ensures Rank(fb.Keys, a) < Rank(fb.Keys, b)
  {
    var ks := SortedKeys(fb.Keys);
    SortedKeysRank(fb.Keys, a);
    SortedKeysRank(fb.Keys, b);
    assert Rank(fb.Keys, a) < Rank(fb.Keys, b);
  }

  // ---------------------------------------------------------------------
  // Lifecycle properties
  // ---------------------------------------------------------------------

  /** A new session keeps the invariant exactly when it has a question. */
  lemma NewSessionValid(id: string, questions: seq<string>)
    ensures KeysInRange(NewSession(id, questions))
    ensures Valid(NewSession(id, questions)) <==> |questions| > 0
  {
  }

  /** Registering a session with a non-empty question list keeps the store
      valid; the new session serves its first question, is not finished and
      has neither feedback nor cached audio. */
  lemma CreateFresh(st: Store, id: string, questions: seq<string>)
    requires StoreValid(st) && |questions| > 0
    ensures StoreValid(Create(st, id, questions))
    ensures CurrentQuestion(Create(st, id, questions), id) == Some(questions[0])
    ensures !IsFinished(Create(st, id, questions), id)
    ensures AllFeedback(Create(st, id, questions), id) == Some([])
    ensures forall i :: GetCachedAudio(Create(st, id, questions), id, i) == None
  {
  }

  /** A successful submit keeps the store valid. */
  lemma SubmitPreservesValid(st: Store, id: string, answer: string, feedback: Option<Feedback>)
    requires StoreValid(st)
    ensures StoreValid(SubmitAnswer(st, id, answer, feedback).1)
  {
    var r := SubmitAnswer(st, id, answer, feedback);
    if r.0 {
      var s, s' := st[id], r.1[id];
      assert s.index < |s.questions|;
      assert Valid(s');
      assert KeysInRange(s');
    }
  }

  /** On a valid session a submit succeeds exactly when there is a current
      question, and then completes the session exactly when it answers the
      last question; the next submit is refused and changes nothing. */
  lemma SubmitCompletes(st: Store, id: string, answer: string, next: string)
    requires StoreValid(st) && id in st
    ensures SubmitAnswer(st, id, answer, None).0 <==> CurrentQuestion(st, id).Some?
    ensures var r := SubmitAnswer(st, id, answer, None);
      r.0 ==> (r.1[id].completed <==> st[id].index + 1 == |st[id].questions|)
    ensures var r := SubmitAnswer(st, id, answer, None);
      r.0 && r.1[id].completed ==>
        SubmitAnswer(r.1, id, next, None) == (false, r.1) && CurrentQuestion(r.1, id).None?
  {
  }

  /** Submitting several answers in turn. */
  function SubmitAll(st: Store, id: string, answers: seq<string>): Store
    decreases |answers|
  {
    if answers == [] then st
    else SubmitAll(SubmitAnswer(st, id, answers[0], None).1, id, answers[1..])
  }

  /** Submitting k answers to a valid session with at least k open questions
      records them in order, advances the pointer by k, and completes the
      session exactly when the pointer reaches the end. */
  lemma {:induction false} SubmitAllAdvances(st: Store, id: string, answers: seq<string>)
    requires StoreValid(st) && id in st
    requires st[id].index + |answers| <= |st[id].questions|
    ensures StoreValid(SubmitAll(st, id, answers))
    ensures id in SubmitAll(st, id, answers)
    ensures var s, s' := st[id], SubmitAll(st, id, answers)[id];
      && s'.id == s.id && s'.questions == s.questions
      && s'.answers == s.answers + answers
      && s'.index == s.index + |answers|
      && (s'.completed <==> s'.index == |s.questions|)
    decreases |answers|
  {
    if answers != [] {
      var r := SubmitAnswer(st, id, answers[0], None);
      SubmitPreservesValid(st, id, answers[0], None);
      SubmitAllAdvances(r.1, id, answers[1..]);
      assert st[id].answers + answers == st[id].answers + [answers[0]] + answers[1..];
    }
  }

  /** Answering every question of a freshly created session completes it,
      with the answers in order; afterwards there is no current question and
      a further submit is refused. */
  lemma FullInterviewCompletes(st: Store, id: string, questions: seq<string>, answers: seq<string>, extra: string)
    requires StoreValid(st) && |questions| > 0 && |answers| == |questions|
    ensures var st' := SubmitAll(Create(st, id, questions), id, answers);
      && id in st'
      && st'[id].completed && st'[id].answers == answers
      && CurrentQuestion(st', id).None?
      && IsFinished(st', id)
      && SubmitAnswer(st', id, extra, None) == (false, st')
  {
    CreateFresh(st, id, questions);
    SubmitAllAdvances(Create(st, id, questions), id, answers);
  }

  /** The guard belongs to the caller: with an empty list the fresh session
      is not completed although its pointer is at the end, and one submit
      pushes the pointer past the end. */
  lemma EmptyQuestionList(st: Store, id: string, answer: string)
    ensures !Valid(NewSession(id, []))
    ensures var r := SubmitAnswer(Create(st, id, []), id, answer, None);
      r.0 && r.1[id].index == 1 && r.1[id].completed
  {
  }

  // ---------------------------------------------------------------------
  // Upserts
  // ---------------------------------------------------------------------

  /** Recording the same feedback twice is the same as recording it once; a
      second value for the same index replaces the first. */
  lemma AddFeedbackLastWins(st: Store, id: string, index: int, f: Feedback, g: Feedback)
    ensures AddFeedback(AddFeedback(st, id, index, f), id, index, g) == AddFeedback(st, id, index, g)
    ensures AddFeedback(AddFeedback(st, id, index, f), id, index, f) == AddFeedback(st, id, index, f)
  {
    if id in st {
      var s := st[id];
      assert s.feedback[index := f][index := g] == s.feedback[index := g];
      assert s.feedback[index := f][index := f] == s.feedback[index := f];
    }
  }

  /** Feedback for different indices may arrive in either order. */
  lemma AddFeedbackCommutes(st: Store, id: string, i: int, j: int, f: Feedback, g: Feedback)
    requires i != j
    ensures AddFeedback(AddFeedback(st, id, i, f), id, j, g) == AddFeedback(AddFeedback(st, id, j, g), id, i, f)
  {
    if id in st {
      var s := st[id];
      assert s.feedback[i := f][j := g] == s.feedback[j := g][i := f];
    }
  }

  /** Caching twice at one index leaves the later path; caching the same
      path twice is the same as caching it once. */
  lemma SetCachedAudioLastWins(st: Store, id: string, index: int, p: string, q: string)
    ensures SetCachedAudio(SetCachedAudio(st, id, index, p), id, index, q) == SetCachedAudio(st, id, index, q)
    ensures SetCachedAudio(SetCachedAudio(st, id, index, p), id, index, p) == SetCachedAudio(st, id, index, p)
    ensures id in st ==> GetCachedAudio(SetCachedAudio(SetCachedAudio(st, id, index, p), id, index, q), id, index) == Some(q)
  {
    if id in st {
      var s := st[id];
      assert s.audio[index := p][index := q] == s.audio[index := q];
      assert s.audio[index := p][index := p] == s.audio[index := p];
    }
  }

  /** A grading write at a valid position keeps the store valid. */
  lemma AddFeedbackPreservesValid(st: Store, id: string, index: int, fb: Feedback)
    requires StoreValid(st)
    requires id in st ==> 0 <= index < |st[id].questions|
    ensures StoreValid(AddFeedback(st, id, index, fb))
  {
    var a := AddFeedback(st, id, index, fb);
    forall k | k in a ensures a[k].id == k && Valid(a[k]) && KeysInRange(a[k]) {
      assert SameProgress(st[k], a[k]);
    }
  }

  /** A cache write at a valid position keeps the store valid. */
  lemma SetCachedAudioPreservesValid(st: Store, id: string, index: int, path: string)
    requires StoreValid(st)
    requires id in st ==> 0 <= index < |st[id].questions|
    ensures StoreValid(SetCachedAudio(st, id, index, path))
  {
    var b := SetCachedAudio(st, id, index, path);
    forall k | k in b ensures b[k].id == k && Valid(b[k]) && KeysInRange(b[k]) {
      assert SameProgress(st[k], b[k]);
    }
  }

  /** A grading write and the candidate's submit touch disjoint parts of the
      session, so their order does not matter. */
  lemma SubmitCommutesWithFeedback(st: Store, id: string, answer: string, other: string, index: int, fb: Feedback)
    ensures var r := SubmitAnswer(AddFeedback(st, other, index, fb), id, answer, None);
      && r.0 == SubmitAnswer(st, id, answer, None).0
      && r.1 == AddFeedback(SubmitAnswer(st, id, answer, None).1, other, index, fb)
  {
  }

  /** A cache write and the candidate's submit commute as well. */
  lemma SubmitCommutesWithAudio(st: Store, id: string, answer: string, other: string, index: int, path: string)
    ensures var r := SubmitAnswer(SetCachedAudio(st, other, index, path), id, answer, None);
      && r.0 == SubmitAnswer(st, id, answer, None).0
      && r.1 == SetCachedAudio(SubmitAnswer(st, id, answer, None).1, other, index, path)
  {
  }

  /** The report of indices 0 and 1 is in index order. */
  lemma ReportOfTwo(f0: Feedback, f1: Feedback)
    ensures FeedbackReport(map[0 := f0, 1 := f1]) == [f0, f1]
  {
    var fb := map[0 := f0, 1 := f1];
    var ks := SortedKeys(fb.Keys);
    assert fb.Keys == {0, 1};
    assert |ks| == 2;
    assert ks[0] < ks[1];
    assert ks[0] in fb.Keys && ks[1] in fb.Keys;
    assert ks == [0, 1];
  }

  /** Grading for question 1 finishing before grading for question 0 still
      yields the report in question order. */
  lemma ReportOutOfOrderArrival(st: Store, id: string, f0: Feedback, f1: Feedback)
    requires id in st && st[id].feedback == map[]
    ensures AllFeedback(AddFeedback(AddFeedback(st, id, 1, f1), id, 0, f0), id) == Some([f0, f1])
  {
    var st' := AddFeedback(AddFeedback(st, id, 1, f1), id, 0, f0);
    assert st'[id].feedback == map[0 := f0, 1 := f1];
    ReportOfTwo(f0, f1);
  }
}

=== FILE: text.dfy ===
/** The handful of Python `str` operations the service relies on, with the
    exact character classes CPython uses: `strip`, `split`, `join`,
    `splitlines`, and decimal rendering of non-negative integers. */
module Text {

  // ---------------------------------------------------------------------
  // Whitespace and strip()
  // ---------------------------------------------------------------------

  /** The characters for which Python's `str.isspace()` holds, i.e. those
      `str.strip()` removes when called without an argument. */
  predicate IsSpace(c: char) {
    || c == ' '
    || '\t' <= c <= '\r'
    || '\U{1C}' <= c <= '\U{1F}'
    || c == '\U{85}' || c == '\U{A0}' || c == '\U{1680}'
    || '\U{2000}' <= c <= '\U{200A}'
    || c == '\U{2028}' || c == '\U{2029}' || c == '\U{202F}'
    || c == '\U{205F}' || c == '\U{3000}'
  }

  predicate AllSpace(s: string) {
    forall i :: 0 <= i < |s| ==> IsSpace(s[i])
  }

  /** `s` has neither leading nor trailing whitespace. */
  predicate IsStripped(s: string) {
    s == [] || (!IsSpace(s[0]) && !IsSpace(s[|s| - 1]))
  }

  /** Length of the whitespace run at the start of `s`. */
  function LeadingSpace(s: string): (k: nat)
    ensures k <= |s| && AllSpace(s[..k])
    ensures k < |s| ==> !IsSpace(s[k])
  {
    if s != [] && IsSpace(s[0]) then 1 + LeadingSpace(s[1..]) else 0
  }

  /** Length of the whitespace run at the end of `s`. */
  function TrailingSpace(s: string): (k: nat)
    ensures k <= |s| && AllSpace(s[|s| - k..])
    ensures k < |s| ==> !IsSpace(s[|s| - k - 1])
  {
    if s != [] && IsSpace(s[|s| - 1]) then 1 + TrailingSpace(s[..|s| - 1]) else 0
  }

  /** Every position in the trailing whitespace run holds whitespace. */
  lemma TrailingRun(s: string)
    ensures forall m :: |s| - TrailingSpace(s) <= m < |s| ==> IsSpace(s[m])
  {
    var e := |s| - TrailingSpace(s);
    assert forall m :: e <= m < |s| ==> s[e..][m - e] == s[m];
  }

  /** Python's `s.strip()`: the contiguous middle of `s` left once the
      whitespace runs at both ends are cut off. */
  function Strip(s: string): (r: string)
    ensures IsStripped(r)
    ensures |r| <= |s|
  {
    var i := LeadingSpace(s);
    if i == |s| then []
    else
      var e := |s| - TrailingSpace(s);
      TrailingRun(s);
      assert i < e;
      s[i..e]
  }

  /** What `strip()` keeps is the slice right after the leading whitespace,
      and only whitespace follows it. */
  lemma StripShape(s: string)
    ensures var i, r := LeadingSpace(s), Strip(s);
      && i + |r| <= |s| && r == s[i..i + |r|] && AllSpace(s[i + |r|..])
  {
    TrailingRun(s);
  }

  /** Stripping a string that has no surrounding whitespace changes nothing;
      in particular `strip()` is idempotent. */
  lemma StripStripped(s: string)
    requires IsStripped(s)
    ensures Strip(s) == s
  {
    assert LeadingSpace(s) == 0;
    assert s[0..] == s;
    assert TrailingSpace(s) == 0;
  }

  lemma StripIdempotent(s: string)
    ensures Strip(Strip(s)) == Strip(s)
  {
    StripStripped(Strip(s));
  }

  lemma {:induction false} LeadingSpacePadded(a: string, u: string)
    requires AllSpace(a) && u != [] && !IsSpace(u[0])
    ensures LeadingSpace(a + u) == |a|
    decreases |a|
  {
    if a != [] {
      assert (a + u)[0] == a[0] && IsSpace(a[0]);
      assert (a + u)[1..] == a[1..] + u;
      LeadingSpacePadded(a[1..], u);
    } else {
      assert a + u == u;
    }
  }

  lemma {:induction false} TrailingSpacePadded(u: string, b: string)
    requires AllSpace(b) && u != [] && !IsSpace(u[|u| - 1])
    ensures TrailingSpace(u + b) == |b|
    decreases |b|
  {
    if b != [] {
      assert (u + b)[..|u + b| - 1] == u + b[..|b| - 1];
      TrailingSpacePadded(u, b[..|b| - 1]);
    } else {
      assert u + b == u;
    }
  }

  /** Whitespace padding around a stripped, non-empty string is exactly
      what `strip()` removes. */
  lemma StripPadded(a: string, t: string, b: string)
    requires AllSpace(a) && AllSpace(b) && IsStripped(t) && t != []
    ensures Strip(a + t + b) == t
  {
    var s, u := a + t + b, a + t;
    assert s == a + (t + b) && (t + b)[0] == t[0];
    LeadingSpacePadded(a, t + b);
    assert u[|u| - 1] == t[|t| - 1];
    TrailingSpacePadded(u, b);
    assert s[|a|..|s| - |b|] == t;
  }

  /** Whitespace in front of a stripped, non-empty string is exactly what
      `strip()` removes. */
  lemma StripLeading(a: string, t: string)
    requires AllSpace(a) && IsStripped(t) && t != []
    ensures Strip(a + t) == t
  {
    var s := a + t;
    LeadingSpacePadded(a, t);
    assert s[|s| - 1] == t[|t| - 1];
    assert TrailingSpace(s) == 0;
    assert s[|a|..|s|] == t;
  }

  /** `strip()` removes only whitespace: every other character keeps its
      membership. */
  lemma StripKeeps(s: string, c: char)
    requires !IsSpace(c)
    ensures c in Strip(s) <==> c in s
  {
    var r := Strip(s);
    var i := LeadingSpace(s);
    forall k | 0 <= k < i ensures s[k] != c {
      assert s[k] == s[..i][k];
    }
    forall k | i + |r| <= k < |s| ensures s[k] != c {
      assert s[k] == s[i + |r|..][k - i - |r|];
    }
    if c in s {
      var k :| 0 <= k < |s| && s[k] == c;
      assert r[k - i] == c;
    }
  }

  /** A join of stripped, non-empty parts is stripped and non-empty. */
  lemma {:induction false} JoinStripped(parts: seq<string>, sep: string)
    requires |parts| >= 1
    requires forall i :: 0 <= i < |parts| ==> parts[i] != [] && IsStripped(parts[i])
    ensures Join(parts, sep) != [] && IsStripped(Join(parts, sep))
    decreases |parts|
  {
    if |parts| > 1 {
      JoinStripped(parts[1..], sep);
      var j := Join(parts, sep);
      var tail := Join(parts[1..], sep);
      assert j == parts[0] + sep + tail;
      assert j[0] == parts[0][0];
      assert j[|j| - 1] == tail[|tail| - 1];
    }
  }

  /** `s.strip()` is empty exactly when `s` is all whitespace. */
  lemma StripEmptyIff(s: string)
    ensures Strip(s) == [] <==> AllSpace(s)
  {
    var r := Strip(s);
    var i := LeadingSpace(s);
    AllSpaceAt(s, i);
    if r != [] {
      assert r[0] == s[i..][0];
    }
  }

  /** A string is all whitespace exactly when both sides of any cut are. */
  lemma AllSpaceAt(s: string, i: nat)
    requires i <= |s|
    ensures AllSpace(s) <==> AllSpace(s[..i]) && AllSpace(s[i..])
  {
    assert forall k :: i <= k < |s| ==> s[i..][k - i] == s[k];
  }

  // ---------------------------------------------------------------------
  // split(sep) and join
  // ---------------------------------------------------------------------

  /** Position of the first `c` in `s`, or `|s|` when `c` does not occur. */
  function IndexOf(s: string, c: char): (k: nat)
    ensures k <= |s| && c !in s[..k]
    ensures k < |s| ==> s[k] == c
  {
    if s == [] then 0
    else if s[0] == c then 0
    else
      var k := 1 + IndexOf(s[1..], c);
      assert s[..k] == [s[0]] + s[1..][..k - 1];
      k
  }

  lemma {:induction false} IndexOfAfter(a: string, c: char, b: string)
    requires c !in a
    ensures IndexOf(a + [c] + b, c) == |a|
  {
    if a != [] {
      assert (a + [c] + b)[1..] == a[1..] + [c] + b;
      IndexOfAfter(a[1..], c, b);
    }
  }

  /** Python's `s.split(sep)` for a one-character separator: never empty,
      no part contains the separator. */
  function Split(s: string, sep: char): (parts: seq<string>)
    ensures |parts| >= 1
    ensures forall i :: 0 <= i < |parts| ==> sep !in parts[i]
    decreases |s|
  {
    var k := IndexOf(s, sep);
    if k == |s| then [s] else [s[..k]] + Split(s[k + 1..], sep)
  }

  /** Python's `sep.join(parts)`: the result starts with the first part. */
  function Join(parts: seq<string>, sep: string): (s: string)
    ensures |parts| >= 1 ==> |parts[0]| <= |s| && s[..|parts[0]|] == parts[0]
  {
    if parts == [] then []
    else if |parts| == 1 then parts[0]
    else parts[0] + sep + Join(parts[1..], sep)
  }

  /** `sep.join([a] + t)` for a non-empty `t`. */
  lemma JoinCons(a: string, t: seq<string>, sep: string)
    requires t != []
    ensures Join([a] + t, sep) == a + sep + Join(t, sep)
  {
    assert ([a] + t)[1..] == t;
  }

  /** A split at the first separator of `s`. */
  lemma SplitAtFirst(s: string, sep: char)
    requires IndexOf(s, sep) < |s|
    ensures var k := IndexOf(s, sep);
      && Split(s, sep) == [s[..k]] + Split(s[k + 1..], sep)
      && s == s[..k] + [sep] + s[k + 1..]
  {
  }

  /** Joining the pieces of a split with the separator gives back the input. */
  lemma {:induction false} JoinSplit(s: string, sep: char)
    ensures Join(Split(s, sep), [sep]) == s
    decreases |s|
  {
    var k := IndexOf(s, sep);
    if k < |s| {
      var head, rest := s[..k], s[k + 1..];
      SplitAtFirst(s, sep);
      JoinSplit(rest, sep);
      JoinCons(head, Split(rest, sep), [sep]);
    }
  }

  /** Splitting a join of separator-free pieces gives back the pieces. */
  lemma {:induction false} SplitJoin(parts: seq<string>, sep: char)
    requires |parts| >= 1
    requires forall i :: 0 <= i < |parts| ==> sep !in parts[i]
    ensures Split(Join(parts, [sep]), sep) == parts
    decreases |parts|
  {
    if |parts| > 1 {
      var tail := Join(parts[1..], [sep]);
      assert Split(Join(parts, [sep]), sep) == [parts[0]] + Split(tail, sep) by {
        assert Join(parts, [sep]) == parts[0] + [sep] + tail;
        SplitAfter(parts[0], sep, tail);
      }
      assert Split(tail, sep) == parts[1..] by {
        SplitJoin(parts[1..], sep);
      }
      assert parts == [parts[0]] + parts[1..];
    } else {
      SplitWhole(parts[0], sep);
    }
  }

  /** A join with a non-empty separator is empty only for no parts or for a
      single empty part. */
  lemma {:induction false} JoinEmptyIff(parts: seq<string>, sep: string)
    requires sep != []
    ensures Join(parts, sep) == [] <==> parts == [] || parts == [[]]
  {
    if |parts| > 1 {
      assert |Join(parts, sep)| >= |sep|;
    }
  }

  // ---------------------------------------------------------------------
  // splitlines()
  // ---------------------------------------------------------------------

  /** The line boundaries of Python's `str.splitlines()`: \n, \v, \f, \r,
      the file/group/record separators, NEL, LINE and PARAGRAPH SEPARATOR. */
  predicate IsLineBreak(c: char) {
    || '\n' <= c <= '\r'
    || '\U{1C}' <= c <= '\U{1E}'
    || c == '\U{85}' || c == '\U{2028}' || c == '\U{2029}'
  }

  predicate NoLineBreak(s: string) {
    forall i :: 0 <= i < |s| ==> !IsLineBreak(s[i])
  }

  /** Position of the first line boundary of `s`, or `|s|`. */
  function FirstLineBreak(s: string): (k: nat)
    ensures k <= |s| && NoLineBreak(s[..k])
    ensures k < |s| ==> IsLineBreak(s[k])
  {
    if s == [] || IsLineBreak(s[0]) then 0
    else
      var k := 1 + FirstLineBreak(s[1..]);
      assert s[..k] == [s[0]] + s[1..][..k - 1];
      k
  }

  lemma {:induction false} FirstLineBreakAfter(a: string, b: string)
    requires NoLineBreak(a)
    ensures FirstLineBreak(a + "\n" + b) == |a|
  {
    if a != [] {
      assert (a + "\n" + b)[1..] == a[1..] + "\n" + b;
      FirstLineBreakAfter(a[1..], b);
    }
  }

  /** Python's `s.splitlines()`: "\r\n" is one boundary, and a boundary at
      the very end opens no further (empty) line. */
  function SplitLines(s: string): (lines: seq<string>)
    ensures forall i :: 0 <= i < |lines| ==> NoLineBreak(lines[i])
    decreases |s|
  {
    if s == [] then []
    else
      var k := FirstLineBreak(s);
      if k == |s| then [s]
      else
        var next := if s[k] == '\r' && k + 1 < |s| && s[k + 1] == '\n' then k + 2 else k + 1;
        [s[..k]] + SplitLines(s[next..])
  }

  /** Every line followed by "\n". */
  function Terminated(lines: seq<string>): string
  {
    if lines == [] then [] else lines[0] + "\n" + Terminated(lines[1..])
  }

  /** `splitlines()` recovers the lines of newline-terminated text. */
  lemma SplitLinesTerminated(lines: seq<string>)
    requires forall i :: 0 <= i < |lines| ==> NoLineBreak(lines[i])
    ensures SplitLines(Terminated(lines)) == lines
  {
    SplitLinesPrefix(lines, []);
    assert Terminated(lines) + [] == Terminated(lines);
    assert lines + SplitLines([]) == lines;
  }

  /** Text without a line break has no boundary. */
  lemma FirstLineBreakNone(s: string)
    requires NoLineBreak(s)
    ensures FirstLineBreak(s) == |s|
  {
  }

  /** `splitlines()` also keeps a last line that no break follows. */
  lemma SplitLinesUnterminated(lines: seq<string>, last: string)
    requires forall i :: 0 <= i < |lines| ==> NoLineBreak(lines[i])
    requires last != [] && NoLineBreak(last)
    ensures SplitLines(Terminated(lines) + last) == lines + [last]
  {
    SplitLinesPrefix(lines, last);
    SplitLinesSingle(last);
  }

  /** Newline-terminated lines in front of any text are split off as they
      are. */
  lemma {:induction false} SplitLinesPrefix(lines: seq<string>, tail: string)
    requires forall i :: 0 <= i < |lines| ==> NoLineBreak(lines[i])
    ensures SplitLines(Terminated(lines) + tail) == lines + SplitLines(tail)
    decreases |lines|
  {
    if lines == [] {
      assert Terminated(lines) + tail == tail;
      assert lines + SplitLines(tail) == SplitLines(tail);
    } else {
      var rest := Terminated(lines[1..]) + tail;
      assert Terminated(lines) + tail == lines[0] + "\n" + rest by {
        assert Terminated(lines) == lines[0] + "\n" + Terminated(lines[1..]);
      }
      assert SplitLines(Terminated(lines) + tail) == [lines[0]] + SplitLines(rest) by {
        SplitLinesCons(lines[0], rest);
      }
      assert SplitLines(rest) == lines[1..] + SplitLines(tail) by {
        SplitLinesPrefix(lines[1..], tail);
      }
      ConsAppend(lines, SplitLines(tail));
    }
  }

  lemma ConsAppend<T>(xs: seq<T>, ys: seq<T>)
    requires xs != []
    ensures xs + ys == [xs[0]] + (xs[1..] + ys)
  {
    assert xs == [xs[0]] + xs[1..];
  }

  /** Break-free lines stay break-free with one more. */
  lemma NoLineBreakSnoc(lines: seq<string>, last: string)
    requires forall i :: 0 <= i < |lines| ==> NoLineBreak(lines[i])
    requires NoLineBreak(last)
    ensures forall i :: 0 <= i < |lines + [last]| ==> NoLineBreak((lines + [last])[i])
  {
    forall i | 0 <= i < |lines + [last]| ensures NoLineBreak((lines + [last])[i]) {
      if i < |lines| {
        assert (lines + [last])[i] == lines[i];
      } else {
        assert (lines + [last])[i] == last;
      }
    }
  }

  /** Non-empty text without a break is one line. */
  lemma SplitLinesSingle(s: string)
    requires s != [] && NoLineBreak(s)
    ensures SplitLines(s) == [s]
  {
    FirstLineBreakNone(s);
  }

  /** A break-free line followed by "\n" is split off first. */
  lemma SplitLinesCons(line: string, rest: string)
    requires NoLineBreak(line)
    ensures SplitLines(line + "\n" + rest) == [line] + SplitLines(rest)
  {
    var s := line + "\n" + rest;
    FirstLineBreakAfter(line, rest);
    assert s[..|line|] == line;
    assert s[|line|] == '\n';
    assert s[|line| + 1..] == rest;
  }

  // ---------------------------------------------------------------------
  // Stripped non-blank items
  // ---------------------------------------------------------------------

  /** The contribution of one item to `StrippedNonBlank`. */
  function KeepStripped(x: string): seq<string>
  {
    var s := Strip(x);
    if s != [] then [s] else []
  }

  /** Python's `[x.strip() for x in xs if x.strip()]`. */
  function StrippedNonBlank(xs: seq<string>): (r: seq<string>)
    ensures |r| <= |xs|
    ensures forall i :: 0 <= i < |r| ==> r[i] != [] && IsStripped(r[i])
  {
    if xs == [] then [] else KeepStripped(xs[0]) + StrippedNonBlank(xs[1..])
  }

  /** Every non-blank item survives stripped, and nothing else appears. */
  lemma {:induction false} StrippedNonBlankMembers(xs: seq<string>)
    ensures forall i :: 0 <= i < |xs| && Strip(xs[i]) != [] ==> Strip(xs[i]) in StrippedNonBlank(xs)
    ensures forall y :: y in StrippedNonBlank(xs) ==> exists i :: 0 <= i < |xs| && y == Strip(xs[i])
    decreases |xs|
  {
    if xs != [] {
      StrippedNonBlankMembers(xs[1..]);
      assert forall i :: 1 <= i < |xs| ==> xs[i] == xs[1..][i - 1];
    }
  }

  /** The filter on a list with a known first item. */
  lemma StrippedNonBlankCons(x: string, xs: seq<string>)
    ensures StrippedNonBlank([x] + xs) == KeepStripped(x) + StrippedNonBlank(xs)
  {
    assert ([x] + xs)[0] == x && ([x] + xs)[1..] == xs;
  }

  /** The filter keeps the original order: it distributes over `+`. */
  lemma {:induction false} StrippedNonBlankAppend(a: seq<string>, b: seq<string>)
    ensures StrippedNonBlank(a + b) == StrippedNonBlank(a) + StrippedNonBlank(b)
    decreases |a|
  {
    if a != [] {
      var a1 := a[1..];
      assert a == [a[0]] + a1;
      assert a + b == [a[0]] + (a1 + b);
      StrippedNonBlankCons(a[0], a1 + b);
      StrippedNonBlankCons(a[0], a1);
      StrippedNonBlankAppend(a1, b);
    } else {
      assert a + b == b;
    }
  }

  /** A character absent from every item is absent from every kept item. */
  lemma {:induction false} StrippedNonBlankAvoids(xs: seq<string>, c: char)
    requires forall i :: 0 <= i < |xs| ==> c !in xs[i]
    ensures forall i :: 0 <= i < |StrippedNonBlank(xs)| ==> c !in StrippedNonBlank(xs)[i]
    decreases |xs|
  {
    if xs != [] {
      StrippedNonBlankAvoids(xs[1..], c);
      var s := Strip(xs[0]);
      assert forall d :: d in s ==> d in xs[0];
      assert StrippedNonBlank(xs) == KeepStripped(xs[0]) + StrippedNonBlank(xs[1..]);
    }
  }

  /** Items that are already stripped and non-blank all survive, in order. */
  lemma {:induction false} StrippedNonBlankKeepsClean(xs: seq<string>)
    requires forall i :: 0 <= i < |xs| ==> xs[i] != [] && IsStripped(xs[i])
    ensures StrippedNonBlank(xs) == xs
    decreases |xs|
  {
    if xs != [] {
      StripStripped(xs[0]);
      StrippedNonBlankKeepsClean(xs[1..]);
      assert xs == [xs[0]] + xs[1..];
    }
  }

  /** Splitting text without the separator gives the text back whole. */
  lemma SplitWhole(a: string, sep: char)
    requires sep !in a
    ensures Split(a, sep) == [a]
  {
    assert IndexOf(a, sep) == |a|;
  }

  /** The first part of a split is everything before the first separator. */
  lemma SplitAfter(a: string, sep: char, b: string)
    requires sep !in a
    ensures Split(a + [sep] + b, sep) == [a] + Split(b, sep)
  {
    var s := a + [sep] + b;
    IndexOfAfter(a, sep, b);
    assert s[..|a|] == a && s[|a| + 1..] == b;
  }

  /** `lead + sep.join(parts)` with the first item and separator written out. */
  lemma JoinUnfold(parts: seq<string>, sep: string, lead: string)
    requires |parts| > 1
    ensures lead + Join(parts, sep) == (lead + parts[0]) + sep + Join(parts[1..], sep)
  {
  }

  /** Each item with `pad` in front of it. */
  function PadEach(parts: seq<string>, pad: string): (r: seq<string>)
    ensures |r| == |parts|
  {
    if parts == [] then [] else [pad + parts[0]] + PadEach(parts[1..], pad)
  }

  /** Splitting items joined by the separator followed by `pad` gives the
      items back, each after its own padding. */
  lemma {:induction false} SplitJoinLead(parts: seq<string>, sep: char, pad: string, lead: string)
    requires |parts| >= 1 && sep !in pad && sep !in lead
    requires forall i :: 0 <= i < |parts| ==> sep !in parts[i]
    ensures Split(lead + Join(parts, [sep] + pad), sep) == [lead + parts[0]] + PadEach(parts[1..], pad)
    decreases |parts|
  {
    var first := lead + parts[0];
    if |parts| == 1 {
      assert lead + Join(parts, [sep] + pad) == first;
      SplitWhole(first, sep);
    } else {
      var tail := Join(parts[1..], [sep] + pad);
      JoinUnfold(parts, [sep] + pad, lead);
      assert first + ([sep] + pad) + tail == first + [sep] + (pad + tail);
      SplitAfter(first, sep, pad + tail);
      SplitJoinLead(parts[1..], sep, pad, pad);
      assert parts[1..][0] == parts[1] && parts[1..][1..] == parts[2..];
    }
  }

  /** Padding in front of clean items is all the filter removes. */
  lemma {:induction false} StrippedNonBlankPadEach(parts: seq<string>, pad: string)
    requires AllSpace(pad)
    requires forall i :: 0 <= i < |parts| ==> parts[i] != [] && IsStripped(parts[i])
    ensures StrippedNonBlank(PadEach(parts, pad)) == parts
    decreases |parts|
  {
    if parts != [] {
      StripLeading(pad, parts[0]);
      StrippedNonBlankPadEach(parts[1..], pad);
      StrippedNonBlankCons(pad + parts[0], PadEach(parts[1..], pad));
      assert parts == [parts[0]] + parts[1..];
    }
  }

  /** A clean first item followed by padded clean items filters back to the
      items. */
  lemma StrippedNonBlankPadTail(parts: seq<string>, pad: string)
    requires |parts| >= 1 && AllSpace(pad)
    requires forall i :: 0 <= i < |parts| ==> parts[i] != [] && IsStripped(parts[i])
    ensures StrippedNonBlank([parts[0]] + PadEach(parts[1..], pad)) == parts
  {
    var first, rest := parts[0], parts[1..];
    var padded := PadEach(rest, pad);
    assert KeepStripped(first) == [first] by {
      StripStripped(first);
    }
    assert StrippedNonBlank(padded) == rest by {
      StrippedNonBlankPadEach(rest, pad);
    }
    StrippedNonBlankCons(first, padded);
    assert parts == [first] + rest;
  }

  /** Clean items joined by the separator followed by padding, as in
      `", ".join(items)`, come back from split-strip-filter exactly. */
  lemma SplitJoinPadded(parts: seq<string>, sep: char, pad: string)
    requires |parts| >= 1 && AllSpace(pad) && sep !in pad
    requires forall i :: 0 <= i < |parts| ==> parts[i] != [] && IsStripped(parts[i]) && sep !in parts[i]
    ensures StrippedNonBlank(Split(Join(parts, [sep] + pad), sep)) == parts
  {
    SplitJoinPieces(parts, sep, pad);
    StrippedNonBlankPadTail(parts, pad);
  }

  /** `SplitJoinLead` with nothing in front. */
  lemma SplitJoinPieces(parts: seq<string>, sep: char, pad: string)
    requires |parts| >= 1 && sep !in pad
    requires forall i :: 0 <= i < |parts| ==> sep !in parts[i]
    ensures Split(Join(parts, [sep] + pad), sep) == [parts[0]] + PadEach(parts[1..], pad)
  {
    var j, first := Join(parts, [sep] + pad), parts[0];
    assert [] + j == j && [] + first == first;
    SplitJoinLead(parts, sep, pad, []);
  }

  // ---------------------------------------------------------------------
  // Decimal numerals
  // ---------------------------------------------------------------------

  predicate IsDigit(c: char) {
    '0' <= c <= '9'
  }

  predicate AllDigits(s: string) {
    forall i :: 0 <= i < |s| ==> IsDigit(s[i])
  }

  function DigitChar(d: nat): (c: char)
    requires d < 10
    ensures IsDigit(c)
  {
    ('0' as int + d) as char
  }

  function DigitValue(c: char): (d: nat)
    requires IsDigit(c)
    ensures d < 10 && DigitChar(d) == c
  {
    c as int - '0' as int
  }

  /** Python's `str(n)` / `f"{n}"` for a non-negative integer. */
  function NatToString(n: nat): (s: string)
    ensures |s| >= 1 && AllDigits(s)
  {
    if n < 10 then [DigitChar(n)] else NatToString(n / 10) + [DigitChar(n % 10)]
  }

  /** The value of a string of decimal digits (leading zeros allowed). */
  function DigitsValue(s: string): nat
    requires AllDigits(s)
  {
    if s == [] then 0 else 10 * DigitsValue(s[..|s| - 1]) + DigitValue(s[|s| - 1])
  }

  /** Reading back a rendered number gives the number. */
  lemma {:induction false} DigitsValueOfNatToString(n: nat)
    ensures DigitsValue(NatToString(n)) == n
  {
    if n >= 10 {
      var s := NatToString(n);
      assert s[..|s| - 1] == NatToString(n / 10);
      DigitsValueOfNatToString(n / 10);
    }
  }

  /** Distinct numbers render differently. */
  lemma NatToStringInjective(m: nat, n: nat)
    requires NatToString(m) == NatToString(n)
    ensures m == n
  {
    DigitsValueOfNatToString(m);
    DigitsValueOfNatToString(n);
  }
}
